=== FILE: README.md ===
# Sweet Shop inventory and access core, in Dafny

A model of the server side of the Sweet Shop: an Express and Mongoose
service that keeps an inventory of sweets. Authenticated users list, search,
create, update and buy sweets. Administrators also delete and restock them.
Users register and log in with an email address and get a signed token.

Everything is a pure function over immutable values:

- The `sweets` collection is a finite map from document id to `Sweet`
  (`SweetModel`). The `users` collection is a map from the normalised email
  address to `User` (`UserRepository`).
- Every repository, service and controller operation takes the store and
  returns the next store with a `Result`, or with a `Response`: a status and
  a payload, or a status and the `{ error }` message.
- The routers are whole request handlers. `SweetRoutes.Handle` resolves the
  route in registration order, runs the middleware stages the route lists
  (`authenticate`, then `authorize`, then `validate`), and ends in the
  controller. `AuthRoutes` does the same for register and login.
- Things outside the program are parameters: the clock, the next document
  id, token verification and signing, bcrypt, the cast of a path parameter
  to an ObjectId, `parseFloat` and zod's email check.

The headline property is `SweetRoutes.ServeKeepsStoreValid`. Over any
sequence of requests, whatever their tokens, bodies and ids, every stored
sweet keeps a trimmed non-empty name and category, a price of at least 0
and a quantity of at least 0. The service-level form, over purchases and
restocks alone, is `SweetService.StockOpsKeepQuantitiesNonNegative`. The
stock side of it rests only on the service's pre-check and on the restock
schema. The repository's `$inc` updates skip the validators and would
commit a negative stock (`SweetRepository.DecreaseCanBreakInvariant`,
`SweetService.RestockTrustsCaller`).

Where the code and the program's own tests disagree, the model follows
the code:

- The test at `src/tests/sweets/sweet.test.js:337-348` buys one unit of
  an empty stock and expects a 400 whose message contains "stock".
  `purchaseSweet` tests "insufficient" first (`sweetService.js:88-94`). So
  for any request of one unit or more, an empty stock is reported as
  `Insufficient quantity available`, and the out-of-stock branch is dead
  (`SweetService.OutOfStockUnreachable`).
- The service's `userId` parameters are never supplied by the controller
  and never read, so the model leaves them out.

Modelling choices that go beyond the program's text:

- `src/middlewares/validation.js` is not part of this model. It is taken to
  replace `req.body` with the schema's output and to forward a failure as a
  `ZodError`.
- `src/models/User.js` is not part of this model. It is taken to declare a
  unique index on `email`.
- Mongoose runs update validators before the query. So an invalid update
  fails with 400 even for an unknown id.
- `timestamps: true` stamps `updatedAt` on every `findByIdAndUpdate`. So
  "nothing else changes" always means "nothing but `updatedAt`".

## Model

| member | source | states |
|---|---|---|
| Text.Trim | src/models/Sweet.js:5-14 | The trimmed string is the input with only JavaScript whitespace removed at both ends, and it neither starts nor ends with whitespace. |
| Text.TrimIdempotent | src/services/authService.js:33-36 | Trimming an already trimmed string changes nothing, so the service's second `trim` after the schema's is a no-op. |
| Text.NormalizeEmail | src/repositories/userRepository.js:23-25 | The result is the lower-cased address with its leading and trailing whitespace removed. It is trimmed and has no upper-case letter. |
| Text.NormalizeEmailIdempotent | src/validations/authValidation.js:5 | Normalising an address twice is normalising it once, so a validated address finds the stored one. |
| Text.ContainsIff | src/repositories/sweetRepository.js:25-27 | The substring test holds exactly when the pattern occurs at some position of the string. |
| ErrorHandler.NewAppError | src/utils/errorHandler.js:4-11 | An `AppError` keeps its message, takes the given status, and defaults to 500. |
| ErrorHandler.HandleError | src/utils/errorHandler.js:13-49 | The error classification is total. An `AppError` keeps its own status and message, and that test comes first. Zod and Mongoose validation errors give 400 `Validation failed`. Code 11000 gives 409 `<first key of keyPattern> already exists`, and only that code does. Any other raised error gives 500 `Internal server error`. |
| ErrorHandler.DuplicateEmailReplyMatchesService | src/utils/errorHandler.js:37-42 | A unique-index rejection of `email` yields the same reply as the service's own 409 for a known address. |
| SweetModel.NewSweet | src/models/Sweet.js:3-30 | A document exists exactly when name, category and price are supplied and pass the validators. It is then valid, with trimmed strings, quantity defaulting to 0 and both timestamps at creation time. Otherwise the result is a `ValidationError`. |
| SweetModel.ApplyFields | src/repositories/sweetRepository.js:61-67 | A `$set` overwrites only the supplied fields, trimming strings, keeps every other field and `createdAt`, and stamps `updatedAt`. |
| SweetModel.ApplyFieldsKeepsValid | src/models/Sweet.js:5-25 | An update the validators accept keeps a valid document valid. |
| SweetModel.ApplyFieldsIdempotent | src/repositories/sweetRepository.js:61-67 | Repeating the same `$set` at the same time gives the same document. |
| SweetRepository.Create | src/repositories/sweetRepository.js:12-15 | Creation succeeds exactly when the schema accepts the data and the id is fresh, and it adds that one valid document. Validation runs first, so invalid data is a `ValidationError` whatever the id. Valid data under an id in use is a duplicate key. A failure changes nothing. |
| SweetRepository.SortNewestFirst | src/repositories/sweetRepository.js:43 | The result is ordered by `createdAt`, newest first, and is a permutation of the input: the same documents, each as often as in the input. |
| SweetRepository.FindAll | src/repositories/sweetRepository.js:22-44 | The result is exactly the stored documents that satisfy every supplied filter, each once, newest first. |
| SweetRepository.FindById | src/repositories/sweetRepository.js:51-53 | The lookup finds a document exactly when the id is stored, and returns the stored document. |
| SweetRepository.UpdateById | src/repositories/sweetRepository.js:61-67 | An update the validators refuse is a `ValidationError`, even for an unknown id. An unknown id otherwise gives null and no change. Otherwise only that document changes, by the `$set`. |
| SweetRepository.DeleteById | src/repositories/sweetRepository.js:74-76 | Deletion removes only that id, keeps every other document, and returns the prior document or null. |
| SweetRepository.DecreaseQuantity | src/repositories/sweetRepository.js:84-90 | The stock becomes old minus q, with no lower bound, and `updatedAt` is stamped. No other field and no other document changes, and the updated document is returned. An unknown id gives null and no change. |
| SweetRepository.IncreaseQuantity | src/repositories/sweetRepository.js:98-104 | The stock becomes old plus q, with no upper bound, and `updatedAt` is stamped. No other field and no other document changes, and the updated document is returned. An unknown id gives null and no change. |
| SweetRepository.FindByIdAfterWrites | src/repositories/sweetRepository.js:51-104 | A lookup after a create, an update or a quantity change returns the document that write returned. After a delete it finds nothing. Every other id reads as before. |
| SweetRepository.FindAllUnfilteredReturnsAll | src/repositories/sweetRepository.js:22-44 | With no filters every stored document is listed once, so the count is the store's size. |
| SweetRepository.EmptyPatternIgnored | src/repositories/sweetRepository.js:25-31 | An empty name or category pattern filters exactly like an absent one. |
| SweetRepository.IncreaseUndoesDecrease | src/repositories/sweetRepository.js:84-104 | An increase by q undoes a decrease by q. Only `updatedAt` differs. |
| SweetRepository.DecreaseCanBreakInvariant | src/repositories/sweetRepository.js:84-90 | From a valid store, a decrease can commit a negative stock: the `$inc` runs without validators. |
| SweetRepository.CreateThenDeleteRestores | src/repositories/sweetRepository.js:12-76 | Deleting a sweet just created restores the store and returns the created document. |
| SweetRepository.WritesKeepStoreValid | src/repositories/sweetRepository.js:12-104 | Create, `$set` update and delete keep every document valid. An `$inc` does so when the new stock is not negative. |
| SweetService.GetSweetById | src/services/sweetService.js:36-42 | The lookup succeeds exactly for a stored id, with that document. Otherwise it fails with 404 `Sweet not found`. |
| SweetService.UpdateSweet | src/services/sweetService.js:51-57 | Refused fields give a validation error. A valid update of an unknown id gives 404. Otherwise the document is updated and returned. Failures change nothing. |
| SweetService.DeleteSweet | src/services/sweetService.js:65-71 | Deletion of an unknown id gives 404 with no change. Otherwise that document is removed and returned. |
| SweetService.PurchaseSweet | src/services/sweetService.js:80-98 | An unknown id gives 404. Stock below the request gives 400 insufficient. The out-of-stock error occurs exactly for an empty stock and a request of zero or less. A sale happens exactly when the request is at most a non-empty stock. It lowers that stock by the request and returns the document. Failures change nothing. The quantity defaults to 1. |
| SweetService.RestockSweet | src/services/sweetService.js:108-117 | An unknown id gives 404 with no change. Otherwise the stock grows by the amount and the document is returned. |
| SweetService.OutOfStockUnreachable | src/services/sweetService.js:88-94 | For a request of at least one unit, the out-of-stock error never occurs. An empty stock yields the insufficient-quantity error and no change. |
| SweetService.PurchaseBoundary | src/services/sweetService.js:88-97 | Buying the whole stock leaves 0. One more unit is refused as insufficient, with no change. |
| SweetService.StockOpKeepsQuantitiesNonNegative | src/services/sweetService.js:80-117 | One purchase, or one restock by a non-negative amount, keeps every stock non-negative. |
| SweetService.StockOpsKeepQuantitiesNonNegative | src/services/sweetService.js:80-117 | In any sequential run of purchases and non-negative restocks, no stock ever becomes negative. |
| SweetService.StockBalance | src/services/sweetService.js:80-117 | Stock is conserved over any sequential run: a sweet's final stock is its initial stock plus everything restocked into it minus everything its successful purchases took. |
| SweetService.SoldSumNonNegative | src/services/sweetService.js:80-100 | When no purchase asks for a negative amount, the run's successful purchases take a non-negative total. |
| SweetService.StockNeverExceedsRestocks | src/services/sweetService.js:80-117 | The upper half of the stock invariant: when no purchase asks for a negative amount, a sweet never holds more than its initial stock plus everything restocked into it. |
| SweetService.StockOpKeepsStoreValid | src/services/sweetService.js:80-117 | A purchase, or a non-negative restock, keeps every document valid. |
| SweetService.RestockUndoesPurchase | src/services/sweetService.js:80-117 | Restocking what a successful purchase took restores the store, except for `updatedAt`. |
| SweetService.RestockTrustsCaller | src/services/sweetService.js:108-117 | The service itself accepts a negative restock amount and commits a negative stock. |
| SweetService.RepositoryCallAsWritten | src/services/sweetService.js:37 | Calling a repository method succeeds exactly for a name the repository defines. Any other name throws a `TypeError`. |
| SweetService.ServiceLookupsAreUndefined | src/services/sweetService.js:37-115 | Every repository method the service names is undefined, so as written each such call ends in 500. The corrected lookup returns the stored sweet. |
| SweetValidation.ValidateCreate | src/validations/sweetValidation.js:3-8 | A body passes exactly when name is 1..100 and category 1..50 characters as sent, price is a number of at least 0, and quantity is absent or an integer of at least 0. The output has trimmed strings, price as sent, and quantity as sent or 0 when absent. Failure is a `ZodError`. |
| SweetValidation.ValidateUpdate | src/validations/sweetValidation.js:10-15 | Every field is optional. A supplied field must meet the create bound. The output carries exactly the supplied fields: strings trimmed, numbers as sent. |
| SweetValidation.ValidatePurchase | src/validations/sweetValidation.js:17-19 | A body passes exactly when quantity is absent or an integer of at least 1. Absent means 1. |
| SweetValidation.ValidateRestock | src/validations/sweetValidation.js:21-23 | A body passes exactly when quantity is an integer of at least 1. There is no default. |
| SweetValidation.RestockRequiresQuantity | src/validations/sweetValidation.js:21-23 | A restock body without quantity is refused. |
| SweetValidation.ValidatedCreateIsStorable | src/validations/sweetValidation.js:3-8 | A body the create schema accepts becomes a document exactly when its trimmed name and category are non-empty. |
| SweetValidation.ValidatedUpdateIsStorable | src/validations/sweetValidation.js:10-15 | An update the schema accepts passes the document's validators exactly when no supplied name or category is blank. |
| SweetValidation.BlankNamePassesSchemaOnly | src/validations/sweetValidation.js:4 | A name of three spaces passes the schema's length check, which looks at the untrimmed string, and the document's `required` check then refuses it. |
| SweetController.Fail | src/controllers/sweetController.js:22-24 | Handing an error on leaves the store unchanged and replies with a failure. |
| SweetController.CastId | src/controllers/sweetController.js:65 | A path parameter becomes an id exactly when it parses. Otherwise it is a `CastError`. |
| SweetController.PriceBound | src/controllers/sweetController.js:37-38 | A price bound is set exactly when its query parameter is present and non-empty, and it is the parsed value. |
| SweetController.FiltersFrom | src/controllers/sweetController.js:34-46 | The filter passes the text parameters through and sets only the price bounds that were supplied. |
| SweetController.PurchaseQuantity | src/controllers/sweetController.js:113 | A non-zero quantity is kept. Zero, being falsy, becomes 1. |
| SweetRoutes.PurchaseDefaultUnused | src/routes/sweetRoutes.js:54 | On the purchase route the `|| 1` default never applies. A body with quantity 0 gets 400 `Validation failed`. An accepted quantity reaches the handler unchanged. |
| SweetController.Create | src/controllers/sweetController.js:15-25 | Success is exactly a fresh id and data the schema accepts. It gives 201 with the stored document. A refused document gives 400 whatever the id. Valid data under an id in use gives 409 `_id already exists`. A failure changes nothing. |
| SweetController.GetAll | src/controllers/sweetController.js:32-57 | The reply is 200, changes nothing, and its count equals the number of sweets listed. Those are exactly the stored sweets matching the query's filters, newest first. |
| SweetController.GetById | src/controllers/sweetController.js:63-73 | A stored id gives 200 with the document. An unknown id gives 404. An unparsable id gives 500. Nothing changes. |
| SweetController.Update | src/controllers/sweetController.js:79-89 | An accepted update of a stored id gives 200 with the updated document. Refused fields give 400, an unknown id 404, an unparsable id 500. Failures change nothing. |
| SweetController.Delete | src/controllers/sweetController.js:95-105 | A stored id is removed, with 200 and the removed document. Otherwise the reply is 404 or 500 and nothing changes. |
| SweetController.Purchase | src/controllers/sweetController.js:111-122 | The body's quantity, or 1 when falsy, is bought. A sale gives 200 with the lowered stock. Too little stock gives 400 and no change. |
| SweetController.Restock | src/controllers/sweetController.js:128-138 | The body's quantity is added unchanged to a stored sweet, with 200. An unknown id gives 404 and no change. |
| SweetController.BlankQueryListsEverything | src/controllers/sweetController.js:34-53 | With every query parameter absent or empty, every stored sweet is listed and the count is the store's size. |
| SweetController.PurchaseThenRestockRestores | src/controllers/sweetController.js:111-138 | A successful purchase followed by a restock of the same amount restores the stock. |
| AuthMiddleware.BearerToken | src/middlewares/auth.js:13-22 | A token exists exactly when the header starts with `Bearer ` and has more after it. The header is then the prefix followed by the token. |
| AuthMiddleware.Authenticate | src/middlewares/auth.js:8-42 | A missing, non-Bearer or empty-token header gives the "please provide a valid token" 401. A token that does not verify gives `Invalid or expired token`. Success is exactly a verified token, and the user is then the payload's id, email and role. |
| AuthMiddleware.Authorize | src/middlewares/auth.js:48-60 | No user gives 401. A role not in the list gives 403. Otherwise the user passes unchanged. |
| AuthMiddleware.BearerRoundTrip | src/middlewares/auth.js:13-32 | Parsing `Bearer ` plus a non-empty token gives the token back, and a verifying token authenticates as its payload. |
| AuthMiddleware.MalformedHeadersRefused | src/middlewares/auth.js:13-22 | Each of these headers is refused with the missing-token 401: none, empty, a bare prefix, a lower-case prefix, and a prefix without its space. |
| AuthMiddleware.FailureStatuses | src/middlewares/auth.js:8-60 | Every authentication failure is a 401. Every authorization failure is a 401 or a 403. |
| SweetRoutes.Resolve | src/routes/sweetRoutes.js:12-60 | A resolved route has the request's method, and its pattern matches the path, with literal segments compared without regard to case as the default router does. Whenever some route matches, one is found. `GET /search`, in any case, never resolves to the by-id route. |
| SweetRoutes.LiteralSegmentsIgnoreCase | src/routes/sweetRoutes.js:12 | `GET /Search`, `POST /<id>/Purchase` and `POST /<id>/RESTOCK` reach the search, purchase and restock routes. |
| SweetRoutes.Gate | src/routes/sweetRoutes.js:16-60 | The access policy: a request passes exactly when its token verifies, an admin-only route sees the `ADMIN` role, and a validated route's body passes its schema, in that order. |
| SweetRoutes.StagesImplementGate | src/routes/sweetRoutes.js:16-60 | Every route's middleware chain, run stage by stage, decides exactly as the access policy. |
| SweetRoutes.Handle | src/routes/sweetRoutes.js:16-60 | A request whose token fails gets that failure on every path. No failure changes the store. An authenticated request to no route gets 404 `Route not found`. A request that resolves to a route gets the middleware chain's error if the chain stops it. Otherwise that route's controller answers with the validated input. |
| SweetRoutes.ResolveFindsRoute | src/routes/sweetRoutes.js:22-60 | Every route is reached by its own method and path, except an id that spells `search` in any case under GET. |
| SweetRoutes.SearchIsListing | src/routes/sweetRoutes.js:29-36 | `GET /search`, in any letter case, reaches the listing, with the same outcome as `GET /`. |
| SweetRoutes.UnauthenticatedGets401 | src/routes/sweetRoutes.js:16 | Without a verifying token every request gets 401 and nothing changes. |
| SweetRoutes.NonAdminForbidden | src/routes/sweetRoutes.js:48-60 | An authenticated non-admin gets 403 on delete and restock whatever the body, with no change. |
| SweetRoutes.RoleIrrelevantOutsideAdminRoutes | src/routes/sweetRoutes.js:22-60 | Outside delete and restock, any two verifying tokens give the same outcome whatever their roles. |
| SweetRoutes.InvalidBodyRefused | src/routes/sweetRoutes.js:22-60 | Once the caller is let through, a body the route's schema refuses gets 400 `Validation failed` and nothing changes. |
| SweetRoutes.HandleKeepsStoreValid | src/routes/sweetRoutes.js:22-60 | Handling any one request keeps every stored sweet valid. |
| SweetRoutes.ControlKeepsStoreValid | src/controllers/sweetController.js:15-138 | Every controller keeps the store valid, given a non-negative restock amount. |
| SweetRoutes.ServeKeepsStoreValid | src/routes/sweetRoutes.js:16-60 | Over any sequence of requests every stored sweet stays valid, so no stock ever becomes negative. |
| AuthValidation.ValidateRegister | src/validations/authValidation.js:3-7 | A body passes exactly when the trimmed username has 3..50 characters, the normalised email is well-formed, and the password has at least 6 characters. The output is normalised. Failure is a `ZodError`. |
| AuthValidation.ValidateLogin | src/validations/authValidation.js:9-12 | A body passes exactly when the normalised email is well-formed and the password is non-empty. Failure is a `ZodError`. |
| AuthValidation.ValidatedRegistrationIsNormal | src/validations/authValidation.js:4-5 | A validated username and email are already in the form the service stores. |
| AuthValidation.ValidatedLoginIsNormal | src/validations/authValidation.js:10 | A validated login email is already normalised. |
| UserRepository.Create | src/repositories/userRepository.js:13-16 | Creation stores the record under its address and returns it. An address already stored is a duplicate key, with no change. |
| UserRepository.FindByEmail | src/repositories/userRepository.js:23-25 | Lookup finds a user exactly when the normalised address is stored, and returns that user. |
| UserRepository.EmailExists | src/repositories/userRepository.js:41-44 | The existence check is true exactly when the lookup by the same address finds a user. |
| UserRepository.FindById | src/repositories/userRepository.js:32-34 | The result is a stored user with that id, and it is none exactly when no stored user has the id. |
| UserRepository.FindStoredById | src/repositories/userRepository.js:32-34 | With distinct ids, looking up a stored user's id returns that user. |
| UserRepository.CreatedUserFoundByAnySpelling | src/repositories/userRepository.js:23-25 | A created user is found from any spelling of its address that normalises to the stored one. |
| UserRepository.CreateKeepsWellKeyed | src/repositories/userRepository.js:13-16 | Creation keeps every user filed under its own address. |
| AuthService.Public | src/services/authService.js:41-43 | The returned user keeps id, username, email and role and has no password. |
| AuthService.Register | src/services/authService.js:19-44 | A known address gives 409 and no change. Otherwise the user is stored with a trimmed username, a normalised address, the hash and the role `USER`, whatever the input. |
| AuthService.Login | src/services/authService.js:51-81 | Success is exactly a user found under the normalised address whose hash accepts the password. The session is then that user without password, and the token signs the stored id, email and role. Every failure is the same 401. |
| AuthService.RegisterKeepsUsersNormal | src/services/authService.js:33-38 | Registration keeps every user filed under a trimmed, lower-case address of its own. |
| AuthService.SecondRegistrationRefused | src/services/authService.js:23-26 | A second registration under any spelling of a registered address is refused with 409, and nothing changes. |
| AuthService.RegisterThenLogin | src/services/authService.js:19-81 | After registering, a login under any spelling with an accepted password yields that user as a `USER`, with a token over the stored id, address and role. |
| AuthService.UniformLoginFailure | src/services/authService.js:55-64 | An unknown address and a wrong password give the identical 401 reply. |
| AuthRoutes.HandleRegister | src/controllers/authController.js:15-26 | A refused body gives 400. A known address gives 409. Otherwise the reply is 201 with the new `USER`, without a password, and the store gains exactly that user. |
| AuthRoutes.HandleLogin | src/controllers/authController.js:32-44 | A refused body gives 400. Bad credentials give the uniform 401. Otherwise the reply is 200 with the token and the user. |
| AuthRoutes.LoginTokenAuthenticates | src/services/authService.js:67-72 | The token of a successful login, sent as a Bearer header, authenticates as exactly the stored user's id, address and role. |
| AuthRoutes.NewUserCannotDeleteOrRestock | src/services/authService.js:37 | A user who just registered and logs in is refused with 403 on delete and restock. |

## Left out

- `client/`, the React front end. It is user interface and browser I/O. Its purchase guard only repeats the server's rule.
- bcrypt hashing and comparison, and JWT signing and verification. They are foreign cryptography. They are parameters (`hashed`, `compare`, `sign`, `verify`), and token expiry is folded into `verify`.
- `src/config/db.js`, `src/server.js`, `src/scripts/seedSweets.js` and the test setup files. They are connection and process plumbing. From `src/app.js` only the 404 handler is modelled. The health route, the root route, CORS and JSON parsing are not.
- Concurrency. Two concurrent purchases can both pass the pre-check before either `$inc` lands, which drives the stock negative. The model is sequential, and every invariant it proves is about sequential runs.
- Full `$regex` semantics. Filter text is matched as a plain case-insensitive substring. Metacharacters, and a pattern that is not a valid regular expression, are not modelled.
- zod's email regular expression. It is the parameter `isEmail`.
- `parseFloat`. It is the parameter `parseFloat` into `real`, so `NaN` and floating-point rounding of prices are not modelled.
- Query parameters given more than once, which Express parses into arrays. A parameter is absent or a single string.
- The `details` field of 400 replies, and the logging of 500s. The model keeps status and `error` message only.
- `src/middlewares/validation.js` and `src/models/User.js` are not part of this model. The assumptions made about them are stated above.
- The service's pass-through `createSweet` and `getSweets` are not modelled as separate members. The controllers call the repository directly, which is all those two methods do.
- SweetRepository.DecreaseQuantity: the stock is an unbounded integer and `old − q` is exact. The program's `quantity` is a JavaScript `Number` (`src/models/Sweet.js:20-24`), and `$inc` adds in IEEE double arithmetic once the stock is stored as a double. The two agree only while every stock and amount stays below 2^53. The undo lemmas (`SweetRepository.IncreaseUndoesDecrease`, `SweetService.RestockUndoesPurchase`, `SweetController.PurchaseThenRestockRestores`) and `SweetService.StockBalance` inherit that bound. The ≥ 0 invariant does not depend on it, since a double `s − q` with `s ≥ q` is never negative.
- SweetRepository.IncreaseQuantity: `old + q` is exact and has no upper bound. The program rounds to a double above 2^53, so the stock it stores can differ from the model's there. The same bound as for `DecreaseQuantity` applies.
- SweetRoutes.Request: paths are taken after Express's normalisation. A trailing slash, which the non-strict router ignores, is not represented. Only GET, POST, PUT and DELETE are modelled. `HEAD`, which Express answers with the GET handler, and other methods such as `PATCH` or `OPTIONS`, which get 404 once authenticated, are left out.
- SweetRepository.FindAll: documents with equal `createdAt` come out in ascending id order. MongoDB leaves their order unspecified, so the contract states only "newest first" and membership.
- Text.Lower: maps only `A`–`Z`. JavaScript's `toLowerCase` also maps other cased letters.
- SweetValidation.ValidateCreate: the length bounds count Dafny `char`s, which are Unicode scalar values. Zod counts UTF-16 code units, so a character outside the Basic Multilingual Plane counts once here and twice in the program. A name of 60 emoji is 120 units: the program refuses it and the model accepts it.
- SweetValidation.ValidateUpdate: the length bounds count Unicode scalar values rather than UTF-16 code units, with the same consequence as for `ValidateCreate`.
- AuthValidation.ValidateRegister: the username bound of 3..50 and the password's `min(6)` count Unicode scalar values rather than UTF-16 code units, so they differ for characters outside the Basic Multilingual Plane. A password of three emoji is 6 units, which the program accepts and the model refuses.

## Findings

| source | as written | input that shows it | evidently intended | confidence | as-written member | corrected member |
|---|---|---|---|---|---|---|
| src/services/sweetService.js:37 | The get, update, delete, purchase and restock methods call `findByIdAndUser`, `updateByIdAndUser`, `deleteByIdAndUser`, `decreaseQuantityAndUser` and `increaseQuantityAndUser` (lines 37, 52, 66, 82, 97, 109, 115). The repository defines none of them, so each call throws a `TypeError`, which `handleError` turns into 500. | `GET /api/sweets/<id of a stored sweet>` with a valid token | Call the repository's `findById`, `updateById`, `deleteById`, `decreaseQuantity` and `increaseQuantity`. | not executed | SweetService.ServiceLookupsAreUndefined | SweetService.GetSweetById |

=== FILE: auth_middleware.dfy ===
/** `authenticate` and `authorize` of `src/middlewares/auth.js`. Token
    verification (`JWTUtil.verifyToken`) is a parameter: it yields the
    decoded payload, or nothing when the signature or expiry check fails. */
module AuthMiddleware {
  import opened Base
  import opened Text
  import opened ErrorHandler

  /** What a verified token carries: the payload `login` signed, with the
      issue and expiry times `jsonwebtoken` adds. */
  datatype Decoded = Decoded(userId: string, email: string, role: string, issuedAt: int, expiresAt: int)

  /** `req.user`. */
  datatype Principal = Principal(userId: string, email: string, role: string)

  const BearerPrefix := "Bearer "
  const Admin := "ADMIN"

  const MissingToken: Thrown := AppError("Authentication required. Please provide a valid token.", 401)
  const InvalidToken: Thrown := AppError("Invalid or expired token", 401)
  const NotAuthenticated: Thrown := AppError("Authentication required", 401)
  const Forbidden: Thrown := AppError("Insufficient permissions. Admin access required.", 403)

  /** The token of an `Authorization` header: present only for a header that
      starts with `Bearer ` and has something after it. */
  function BearerToken(header: Option<string>): (r: Option<string>)
    ensures r.Some? <==> header.Some? && IsPrefix(BearerPrefix, header.value) && |header.value| > |BearerPrefix|
    ensures r.Some? ==> header.value == BearerPrefix + r.value && r.value != ""
  {
    if header.Some? && IsPrefix(BearerPrefix, header.value) && |header.value| > |BearerPrefix| then
      var token := header.value[|BearerPrefix|..];
      assert header.value == header.value[..|BearerPrefix|] + token;
      Some(token)
    else None
  }

  /** `authenticate`: a missing, non-Bearer or empty-token header is refused
      with the "please provide a valid token" 401; a token that does not
      verify with the "invalid or expired" 401; otherwise the request's user
      is exactly the payload's id, email and role. */
  function Authenticate(header: Option<string>, verify: string -> Option<Decoded>): (r: Result<Principal, Thrown>)
    ensures BearerToken(header).None? ==> r == Err(MissingToken)
    ensures BearerToken(header).Some? && verify(BearerToken(header).value).None? ==> r == Err(InvalidToken)
    ensures r.Ok? <==> BearerToken(header).Some? && verify(BearerToken(header).value).Some?
    ensures r.Ok? ==> var d := verify(BearerToken(header).value).value;
                      r.value == Principal(d.userId, d.email, d.role)
  {
    match BearerToken(header)
    case None => Err(MissingToken)
    case Some(token) =>
      match verify(token)
      case None => Err(InvalidToken)
      case Some(d) => Ok(Principal(d.userId, d.email, d.role))
  }

  /** `authorize(...allowedRoles)`: 401 without a user, 403 for a role not
      in the list, otherwise the request passes on unchanged. */
  function Authorize(user: Option<Principal>, allowed: seq<string>): (r: Result<Principal, Thrown>)
    ensures user.None? ==> r == Err(NotAuthenticated)
    ensures user.Some? && user.value.role !in allowed ==> r == Err(Forbidden)
    ensures r.Ok? <==> user.Some? && user.value.role in allowed
    ensures r.Ok? ==> r.value == user.value
  {
    match user
    case None => Err(NotAuthenticated)
    case Some(u) => if u.role in allowed then Ok(u) else Err(Forbidden)
  }

  // ---------------------------------------------------------------- properties

  /** Prefixing a non-empty token with `Bearer ` and parsing it back gives
      the token again, so a token that verifies authenticates as its payload. */
  lemma BearerRoundTrip(token: string, verify: string -> Option<Decoded>)
    requires token != ""
    ensures BearerToken(Some(BearerPrefix + token)) == Some(token)
    ensures verify(token).Some? ==>
              Authenticate(Some(BearerPrefix + token), verify)
                == Ok(Principal(verify(token).value.userId, verify(token).value.email, verify(token).value.role))
  {
    var h := BearerPrefix + token;
    assert IsPrefix(BearerPrefix, h) by { assert h[..|BearerPrefix|] == BearerPrefix; }
    assert h[|BearerPrefix|..] == token;
  }

  /** The prefix is case-sensitive and its space is required. */
  lemma MalformedHeadersRefused(verify: string -> Option<Decoded>)
    ensures Authenticate(None, verify) == Err(MissingToken)
    ensures Authenticate(Some(""), verify) == Err(MissingToken)
    ensures Authenticate(Some("Bearer "), verify) == Err(MissingToken)
    ensures Authenticate(Some("bearer abc"), verify) == Err(MissingToken)
    ensures Authenticate(Some("Bearerabc"), verify) == Err(MissingToken)
  {
    assert !IsPrefix(BearerPrefix, "bearer abc") by { assert "bearer abc"[0] != BearerPrefix[0]; }
    assert !IsPrefix(BearerPrefix, "Bearerabc") by { assert "Bearerabc"[6] != BearerPrefix[6]; }
  }

  /** Every authentication failure is a 401, and every authorization failure
      is a 401 or a 403. */
  lemma FailureStatuses<T>(header: Option<string>, verify: string -> Option<Decoded>, user: Option<Principal>, allowed: seq<string>)
    ensures Authenticate(header, verify).Err? ==> HandleError<T>(Authenticate(header, verify).error).status == 401
    ensures Authorize(user, allowed).Err? ==> HandleError<T>(Authorize(user, allowed).error).status in {401, 403}
  {
  }
}

=== FILE: auth_routes.dfy ===
/** The auth router of `src/routes/authRoutes.js` with the handlers of
    `src/controllers/authController.js`: each body is validated, then handed
    to the service, and the outcome becomes the reply. Also the link between
    the two halves of the system: the token a login returns is the one the
    sweets router authenticates. */
module AuthRoutes {
  import opened Base
  import opened Text
  import opened Json
  import opened ErrorHandler
  import opened AuthValidation
  import opened UserRepository
  import opened AuthService
  import opened AuthMiddleware
  import SweetRoutes
  import SweetModel
  import SC = SweetController

  /** The JSON body of a successful reply. */
  datatype AuthReply =
    | Registered(message: string, user: PublicUser)
    | LoggedIn(message: string, token: string, user: PublicUser)

  datatype AuthServed = AuthServed(users: Users, response: Response<AuthReply>)

  /** What the auth routes take from outside: the address format check, the
      next `_id`, the hash `bcrypt.hash` returns, `bcrypt.compare` and
      `jwt.sign`. */
  datatype AuthEnv = AuthEnv(
    isEmail: string -> bool,
    newUserId: string,
    hashed: string,
    compare: (string, string) -> bool,
    sign: TokenPayload -> string)

  /** `POST /register`: 400 for a body the schema refuses, 409 for a known
      address, otherwise 201 with the new user, who is a `USER`, carries the
      username trimmed and the address normalised once more by the service
      (a no-op on validated input, see `ValidatedRegistrationIsNormal`), and
      has no password in the reply. */
  function HandleRegister(users: Users, body: Body, env: AuthEnv): (r: AuthServed)
    ensures r.response.Failure? ==> r.users == users
    ensures ValidateRegister(body, env.isEmail).Err? ==> r.response == Failure(400, "Validation failed")
    ensures ValidateRegister(body, env.isEmail).Ok? ==>
              var d := ValidateRegister(body, env.isEmail).value;
              && (EmailExists(users, d.email) ==> r.response == Failure(409, "email already exists"))
              && (!EmailExists(users, d.email) ==>
                    var u := User(env.newUserId, Trim(d.username), NormalizeEmail(d.email), env.hashed, UserRole);
                    && r.users == users[u.email := u]
                    && r.response == Success(201, Registered("User registered successfully",
                                                             PublicUser(u.id, u.username, u.email, UserRole))))
  {
    match ValidateRegister(body, env.isEmail)
    case Err(e) => AuthServed(users, HandleError(e))
    case Ok(d) =>
      var s := Register(users, d, env.newUserId, env.hashed);
      match s.result
      case Err(e) => AuthServed(users, HandleError(e))
      case Ok(u) => AuthServed(s.users, Success(201, Registered("User registered successfully", Public(u))))
  }

  /** `POST /login`: 400 for a body the schema refuses, the uniform 401 for
      bad credentials, otherwise 200 with the token and the user. Nothing is
      stored. */
  function HandleLogin(users: Users, body: Body, env: AuthEnv): (r: Response<AuthReply>)
    ensures ValidateLogin(body, env.isEmail).Err? ==> r == Failure(400, "Validation failed")
    ensures ValidateLogin(body, env.isEmail).Ok? ==>
              var l := ValidateLogin(body, env.isEmail).value;
              && (Login(users, l, env.compare, env.sign).Err? ==> r == Failure(401, "Invalid email or password"))
              && (Login(users, l, env.compare, env.sign).Ok? ==>
                    var u := FindByEmail(users, l.email).value;
                    r == Success(200, LoggedIn("Login successful", env.sign(TokenPayload(u.id, u.email, u.role)), Public(u))))
  {
    match ValidateLogin(body, env.isEmail)
    case Err(e) => HandleError(e)
    case Ok(l) =>
      match Login(users, l, env.compare, env.sign)
      case Err(e) => HandleError(e)
      case Ok(s) => Success(200, LoggedIn("Login successful", s.token, s.user))
  }

  // ---------------------------------------------------------------- properties

  /** What the signer and the verifier promise each other: a signed payload
      is a non-empty token that verifies to that payload. */
  predicate Verifies(verify: string -> Option<Decoded>, sign: TokenPayload -> string, p: TokenPayload) {
    && sign(p) != ""
    && verify(sign(p)).Some?
    && verify(sign(p)).value.userId == p.userId
    && verify(sign(p)).value.email == p.email
    && verify(sign(p)).value.role == p.role
  }

  /** The token of a successful login, sent as `Bearer <token>`,
      authenticates as exactly the stored user's id, address and role. */
  lemma LoginTokenAuthenticates(users: Users, body: Body, env: AuthEnv, verify: string -> Option<Decoded>)
    requires HandleLogin(users, body, env).Success?
    requires var u := FindByEmail(users, ValidateLogin(body, env.isEmail).value.email).value;
             Verifies(verify, env.sign, TokenPayload(u.id, u.email, u.role))
    ensures var u := FindByEmail(users, ValidateLogin(body, env.isEmail).value.email).value;
            var reply := HandleLogin(users, body, env).payload;
            reply.LoggedIn? && Authenticate(Some(BearerPrefix + reply.token), verify) == Ok(Principal(u.id, u.email, u.role))
  {
    var u := FindByEmail(users, ValidateLogin(body, env.isEmail).value.email).value;
    BearerRoundTrip(env.sign(TokenPayload(u.id, u.email, u.role)), verify);
  }

  /** A user who has just registered, logged in and presents that token is
      refused with 403 on delete and on restock, whatever the body: the role
      a registration stores is `USER`. */
  lemma NewUserCannotDeleteOrRestock(users: Users, reg: Body, login: Body, env: AuthEnv,
                                     store: SweetModel.Store, req: SweetRoutes.Request, senv: SweetRoutes.Env)
    requires HandleRegister(users, reg, env).response.Success?
    requires var d := ValidateRegister(reg, env.isEmail).value;
             && ValidateLogin(login, env.isEmail).Ok?
             && ValidateLogin(login, env.isEmail).value.email == d.email
             && env.compare(ValidateLogin(login, env.isEmail).value.password, env.hashed)
             && (forall p :: Verifies(senv.verify, env.sign, p))
    requires var reply := HandleLogin(HandleRegister(users, reg, env).users, login, env);
             reply.Success? && reply.payload.LoggedIn?
             && req.authorization == Some(BearerPrefix + reply.payload.token)
    requires SweetRoutes.Resolve(req.verb, req.path).Some?
    requires SweetRoutes.AdminOnly(SweetRoutes.Resolve(req.verb, req.path).value)
    ensures SweetRoutes.Handle(store, req, senv)
              == SC.Served(store, Failure(403, "Insufficient permissions. Admin access required."))
  {
    var d := ValidateRegister(reg, env.isEmail).value;
    var after := HandleRegister(users, reg, env).users;
    assert after[NormalizeEmail(d.email)].role == UserRole;
    LoginTokenAuthenticates(after, login, env, senv.verify);
    SweetRoutes.NonAdminForbidden(store, req, senv);
  }
}

=== FILE: auth_service.dfy ===
/** `AuthService` of `src/services/authService.js`. Password hashing and
    comparison (`bcrypt`) and token signing (`jsonwebtoken`) are parameters:
    registration receives the hash `bcrypt.hash` produced, login receives
    the comparison and the signer. */
module AuthService {
  import opened Base
  import opened Text
  import opened ErrorHandler
  import opened AuthValidation
  import opened UserRepository

  const UserRole := "USER"

  const EmailTaken: Thrown := AppError("email already exists", 409)
  const BadCredentials: Thrown := AppError("Invalid email or password", 401)

  /** `user.toObject()` with `password` deleted: the type has no place for it. */
  datatype PublicUser = PublicUser(id: string, username: string, email: string, role: string)

  function Public(u: User): (p: PublicUser)
    ensures p.id == u.id && p.username == u.username && p.email == u.email && p.role == u.role
  {
    PublicUser(u.id, u.username, u.email, u.role)
  }

  /** The payload `login` signs. */
  datatype TokenPayload = TokenPayload(userId: string, email: string, role: string)

  datatype Session = Session(user: PublicUser, token: string)

  /** `register`: a known address (after normalisation) is refused with 409
      and nothing is stored; otherwise the user is stored with the trimmed
      username, the normalised address, the password hash and the role
      `USER` whatever the input said, and returned without the hash. */
  function Register(users: Users, data: RegisterData, id: string, hashed: string): (r: Saved)
    ensures EmailExists(users, data.email) ==> r == Saved(users, Err(EmailTaken))
    ensures !EmailExists(users, data.email) ==>
              var u := User(id, Trim(data.username), NormalizeEmail(data.email), hashed, UserRole);
              r == Saved(users[u.email := u], Ok(u))
    ensures r.result.Ok? ==> r.result.value.role == UserRole && r.result.value.password == hashed
  {
    if EmailExists(users, data.email) then Saved(users, Err(EmailTaken))
    else UserRepository.Create(users, User(id, Trim(data.username), NormalizeEmail(data.email), hashed, UserRole))
  }

  /** `login`: the user found under the normalised address whose stored hash
      the password matches; an unknown address and a wrong password fail
      alike. The token signs the stored id, address and role. */
  function Login(users: Users, data: LoginData, compare: (string, string) -> bool, sign: TokenPayload -> string): (r: Result<Session, Thrown>)
    ensures r.Ok? <==> FindByEmail(users, data.email).Some? && compare(data.password, FindByEmail(users, data.email).value.password)
    ensures r.Err? ==> r.error == BadCredentials
    ensures r.Ok? ==> var u := FindByEmail(users, data.email).value;
                      r.value == Session(Public(u), sign(TokenPayload(u.id, u.email, u.role)))
  {
    match FindByEmail(users, data.email)
    case None => Err(BadCredentials)
    case Some(u) =>
      if !compare(data.password, u.password) then Err(BadCredentials)
      else Ok(Session(Public(u), sign(TokenPayload(u.id, u.email, u.role))))
  }

  // ---------------------------------------------------------------- properties

  /** Registration keeps the collection filed by address, and every stored
      address is in normal form. */
  predicate UsersNormal(users: Users) {
    forall e :: e in users ==> users[e].email == e && IsTrimmed(e) && NoUpper(e)
  }

  lemma InsertKeepsUsersNormal(users: Users, u: User)
    requires UsersNormal(users) && IsTrimmed(u.email) && NoUpper(u.email)
    ensures UsersNormal(users[u.email := u])
  {
  }

  lemma RegisterKeepsUsersNormal(users: Users, data: RegisterData, id: string, hashed: string)
    requires UsersNormal(users)
    ensures UsersNormal(Register(users, data, id, hashed).users)
  {
    var r := Register(users, data, id, hashed);
    if r.result.Ok? {
      InsertKeepsUsersNormal(users, r.result.value);
    }
  }

  /** A second registration under any spelling of a registered address is
      refused, and the first user stays as it was. */
  lemma SecondRegistrationRefused(users: Users, d1: RegisterData, d2: RegisterData, id1: string, id2: string, h1: string, h2: string)
    requires Register(users, d1, id1, h1).result.Ok?
    requires NormalizeEmail(d2.email) == NormalizeEmail(d1.email)
    ensures var after := Register(users, d1, id1, h1).users;
            Register(after, d2, id2, h2) == Saved(after, Err(EmailTaken))
  {
  }

  /** Whoever registers is a `USER`, and a login with a password the stored
      hash accepts, under any spelling of the address, yields a session whose
      token carries that user's id, address and the role `USER`. */
  lemma RegisterThenLogin(users: Users, d: RegisterData, id: string, hashed: string,
                          l: LoginData, compare: (string, string) -> bool, sign: TokenPayload -> string)
    requires !EmailExists(users, d.email)
    requires NormalizeEmail(l.email) == NormalizeEmail(d.email)
    requires compare(l.password, hashed)
    ensures var after := Register(users, d, id, hashed).users;
            Login(after, l, compare, sign)
              == Ok(Session(PublicUser(id, Trim(d.username), NormalizeEmail(d.email), UserRole),
                            sign(TokenPayload(id, NormalizeEmail(d.email), UserRole))))
  {
  }

  /** An unknown address and a wrong password produce the same reply. */
  lemma UniformLoginFailure<T>(users: Users, unknown: LoginData, wrong: LoginData,
                               compare: (string, string) -> bool, sign: TokenPayload -> string)
    requires !EmailExists(users, unknown.email)
    requires EmailExists(users, wrong.email) && !compare(wrong.password, FindByEmail(users, wrong.email).value.password)
    ensures Login(users, unknown, compare, sign).Err? && Login(users, wrong, compare, sign).Err?
    ensures HandleError<T>(Login(users, unknown, compare, sign).error)
              == HandleError<T>(Login(users, wrong, compare, sign).error)
              == Failure(401, "Invalid email or password")
  {
  }
}

=== FILE: auth_validation.dfy ===
/** The zod schemas of `src/validations/authValidation.js`. A `preprocess`
    step rewrites a string before it is checked: the username is trimmed,
    the email lower-cased and trimmed. A value that is not a string is
    passed on unchanged and then fails `z.string()`. The email format check
    is the parameter `isEmail`. */
module AuthValidation {
  import opened Base
  import opened Text
  import opened Json
  import opened ErrorHandler

  datatype RegisterData = RegisterData(username: string, email: string, password: string)
  datatype LoginData = LoginData(email: string, password: string)

  const UsernameMin := 3
  const UsernameMax := 50
  const PasswordMin := 6

  predicate IsText(v: Option<Json>) {
    v.Some? && v.value.JStr?
  }

  /** `username`: trimmed first, then 3 to 50 characters. */
  predicate UsernameOk(v: Option<Json>) {
    IsText(v) && UsernameMin <= |Trim(v.value.s)| <= UsernameMax
  }

  /** `email`: lower-cased and trimmed first, then a well-formed address. */
  predicate EmailOk(v: Option<Json>, isEmail: string -> bool) {
    IsText(v) && isEmail(NormalizeEmail(v.value.s))
  }

  /** `password`: a string of at least `least` characters, as sent. */
  predicate PasswordOk(v: Option<Json>, least: nat) {
    IsText(v) && |v.value.s| >= least
  }

  /** `registerSchema`. */
  function ValidateRegister(body: Body, isEmail: string -> bool): (r: Result<RegisterData, Thrown>)
    ensures var username, email, password := Field(body, "username"), Field(body, "email"), Field(body, "password");
            && (r.Ok? <==> UsernameOk(username) && EmailOk(email, isEmail) && PasswordOk(password, PasswordMin))
            && (r.Ok? ==> && r.value.username == Trim(username.value.s)
                          && r.value.email == NormalizeEmail(email.value.s)
                          && r.value.password == password.value.s
                          && UsernameMin <= |r.value.username| <= UsernameMax
                          && IsTrimmed(r.value.username)
                          && IsTrimmed(r.value.email) && NoUpper(r.value.email)
                          && isEmail(r.value.email)
                          && |r.value.password| >= PasswordMin)
            && (r.Err? ==> r.error == ZodError)
  {
    var username, email, password := Field(body, "username"), Field(body, "email"), Field(body, "password");
    if UsernameOk(username) && EmailOk(email, isEmail) && PasswordOk(password, PasswordMin) then
      Ok(RegisterData(Trim(username.value.s), NormalizeEmail(email.value.s), password.value.s))
    else Err(ZodError)
  }

  /** `loginSchema`: the same email treatment, and a non-empty password. */
  function ValidateLogin(body: Body, isEmail: string -> bool): (r: Result<LoginData, Thrown>)
    ensures var email, password := Field(body, "email"), Field(body, "password");
            && (r.Ok? <==> EmailOk(email, isEmail) && PasswordOk(password, 1))
            && (r.Ok? ==> && r.value.email == NormalizeEmail(email.value.s)
                          && r.value.password == password.value.s
                          && r.value.password != [])
            && (r.Err? ==> r.error == ZodError)
  {
    var email, password := Field(body, "email"), Field(body, "password");
    if EmailOk(email, isEmail) && PasswordOk(password, 1) then
      Ok(LoginData(NormalizeEmail(email.value.s), password.value.s))
    else Err(ZodError)
  }

  // ---------------------------------------------------------------- properties

  /** A validated registration is already in normal form, so the
      service's own `username.trim()` and `email.toLowerCase().trim()`
      change nothing. */
  lemma ValidatedRegistrationIsNormal(body: Body, isEmail: string -> bool)
    requires ValidateRegister(body, isEmail).Ok?
    ensures var d := ValidateRegister(body, isEmail).value;
            Trim(d.username) == d.username && NormalizeEmail(d.email) == d.email
  {
    TrimIdempotent(Field(body, "username").value.s);
    NormalizeEmailIdempotent(Field(body, "email").value.s);
  }

  /** The same for the login address. */
  lemma ValidatedLoginIsNormal(body: Body, isEmail: string -> bool)
    requires ValidateLogin(body, isEmail).Ok?
    ensures NormalizeEmail(ValidateLogin(body, isEmail).value.email) == ValidateLogin(body, isEmail).value.email
  {
    NormalizeEmailIdempotent(Field(body, "email").value.s);
  }
}

=== FILE: base.dfy ===
/** Failure-compatible wrappers shared by every layer of the service model.
    `Option` stands for JavaScript's `undefined`/`null` returns, `Result` for
    a value or a thrown error. */
module Base {

  datatype Option<+T> = None | Some(value: T) {
    function GetOr(default: T): T {
      match this
      case Some(v) => v
      case None => default
    }
  }

  datatype Result<+T, +E> = Ok(value: T) | Err(error: E) {
    predicate IsFailure() {
      Err?
    }

    function PropagateFailure<U>(): Result<U, E>
      requires Err?
    {
      Err(error)
    }

    function Extract(): T
      requires Ok?
    {
      value
    }
  }
}

=== FILE: error_handler.dfy ===
/** The error taxonomy of `src/utils/errorHandler.js`: the service's own
    `AppError`, and every other object that reaches Express's error handler,
    described by the three properties `handleError` inspects (`name`, `code`
    and the keys of `keyPattern`). */
module ErrorHandler {
  import opened Base

  datatype Thrown =
    | AppError(message: string, statusCode: int)
    | Raised(name: string, code: Option<int>, keyPattern: seq<string>)

  /** `new AppError(message, statusCode)`, whose status defaults to 500. */
  function NewAppError(message: string, statusCode: Option<int>): (e: Thrown)
    ensures e.AppError? && e.message == message
    ensures statusCode.None? ==> e.statusCode == 500
    ensures statusCode.Some? ==> e.statusCode == statusCode.value
  {
    AppError(message, statusCode.GetOr(500))
  }

  /** What a failed zod `parse` throws. */
  const ZodError: Thrown := Raised("ZodError", None, [])
  /** What a failed Mongoose schema or update validation throws. */
  const ValidationError: Thrown := Raised("ValidationError", None, [])
  /** What Mongoose throws for an id that is not an ObjectId. */
  const CastError: Thrown := Raised("CastError", None, [])
  /** What the driver throws when a unique index rejects a write. */
  function DuplicateKey(keys: seq<string>): Thrown {
    Raised("MongoServerError", Some(11000), keys)
  }

  const DuplicateKeyCode := 11000

  /** An HTTP reply: a success payload, or the `{ error }` body of a failure. */
  datatype Response<+T> = Success(status: int, payload: T) | Failure(status: int, error: string)

  /** `String(Object.keys(keyPattern)[0])`: `"undefined"` when there is no key. */
  function FirstKey(keys: seq<string>): string {
    if keys == [] then "undefined" else keys[0]
  }

  /** `handleError`: an `AppError` keeps its own status and message, checked
      before anything else; zod and Mongoose validation failures are 400;
      a duplicate key is 409 naming the first key; anything else is 500. */
  function HandleError<T>(e: Thrown): (r: Response<T>)
    ensures r.Failure?
    ensures e.AppError? ==> r.status == e.statusCode && r.error == e.message
    ensures e.Raised? ==> r.status in {400, 409, 500}
    ensures e.Raised? && (e.name == "ZodError" || e.name == "ValidationError") ==> r == Failure(400, "Validation failed")
    ensures r.status == 409 && e.Raised? <==> e.Raised? && e.name != "ZodError" && e.name != "ValidationError" && e.code == Some(DuplicateKeyCode)
    ensures r.status == 500 && e.Raised? ==> r.error == "Internal server error"
    ensures e.Raised? && e.name != "ZodError" && e.name != "ValidationError" && e.code == Some(DuplicateKeyCode) ==>
              r == Failure(409, FirstKey(e.keyPattern) + " already exists")
    ensures e.Raised? && e.name != "ZodError" && e.name != "ValidationError" && e.code != Some(DuplicateKeyCode) ==>
              r == Failure(500, "Internal server error")
  {
    match e
    case AppError(message, status) => Failure(status, message)
    case Raised(name, code, keys) =>
      if name == "ZodError" then Failure(400, "Validation failed")
      else if name == "ValidationError" then Failure(400, "Validation failed")
      else if code == Some(DuplicateKeyCode) then Failure(409, FirstKey(keys) + " already exists")
      else Failure(500, "Internal server error")
  }

  /** A unique-index violation on `email` produces the very reply the
      registration service gives for a known email, so the two paths that can
      reject a duplicate are indistinguishable to a client. */
  lemma DuplicateEmailReplyMatchesService<T>()
    ensures HandleError<T>(DuplicateKey(["email"])) == HandleError<T>(NewAppError("email already exists", Some(409)))
  {
  }
}

=== FILE: json.dfy ===
/** The JSON values an Express handler sees in `req.body` once `express.json()`
    has parsed it. Arrays and nested objects are never inspected by the service,
    so they are kept opaque. */
module Json {
  import opened Base

  datatype Json =
    | JNull
    | JBool(b: bool)
    | JNum(n: real)
    | JStr(s: string)
    | JComposite

  /** A parsed request body; a key that is absent reads as `undefined`. */
  type Body = map<string, Json>

  function Field(body: Body, key: string): (v: Option<Json>)
    ensures v.Some? <==> key in body
    ensures v.Some? ==> v.value == body[key]
  {
    if key in body then Some(body[key]) else None
  }

  /** A JSON number with no fractional part, as `Number.isInteger` decides. */
  predicate IsInteger(n: real) {
    n == n.Floor as real
  }
}

=== FILE: sweet_controller.dfy ===
/** `SweetController` of `src/controllers/sweetController.js`: each handler
    turns the (already validated) request into a service call and the
    outcome into a reply; any error is handed to `handleError`. The path
    parameter is cast to a document id first, and a string that is not an id
    is a Mongoose `CastError` (a 500). Creation and listing go straight to
    the repository, as the service's `createSweet` and `getSweets` do. */
module SweetController {
  import opened Base
  import opened ErrorHandler
  import opened SweetModel
  import opened SweetRepository
  import opened SweetService

  /** The query string of a listing; `None` is an absent parameter. */
  datatype Query = Query(
    name: Option<string>,
    category: Option<string>,
    minPrice: Option<string>,
    maxPrice: Option<string>)

  const NoQuery := Query(None, None, None, None)

  /** The JSON body of a successful reply. */
  datatype Reply =
    | One(message: string, sweet: Option<Doc>)
    | Many(message: string, count: int, sweets: seq<Doc>)

  /** The store after a handler together with the reply it sent. */
  datatype Served = Served(store: Store, response: Response<Reply>)

  /** `next(error)`: the store as it was, and `handleError`'s reply. */
  function Fail(store: Store, e: Thrown): (r: Served)
    ensures r.store == store && r.response.Failure?
  {
    Served(store, HandleError(e))
  }

  /** Mongoose's cast of a path parameter to an id. */
  function CastId(idText: string, parseId: string -> Option<SweetId>): (r: Result<SweetId, Thrown>)
    ensures r.Ok? <==> parseId(idText).Some?
    ensures r.Ok? ==> r.value == parseId(idText).value
    ensures r.Err? ==> r.error == CastError
  {
    match parseId(idText)
    case Some(id) => Ok(id)
    case None => Err(CastError)
  }

  /** `minPrice: req.query.minPrice ? parseFloat(req.query.minPrice) : undefined`:
      an absent or empty parameter sets no bound. */
  function PriceBound(p: Option<string>, parseFloat: string -> real): (b: Option<real>)
    ensures b.Some? <==> p.Some? && p.value != ""
    ensures b.Some? ==> b.value == parseFloat(p.value)
  {
    if p.Some? && p.value != "" then Some(parseFloat(p.value)) else None
  }

  /** The `filters` object `getAll` builds: the text parameters are passed on
      as they are, the price bounds through `PriceBound`. */
  function FiltersFrom(q: Query, parseFloat: string -> real): (f: Filters)
    ensures f.name == q.name && f.category == q.category
    ensures f.minPrice == PriceBound(q.minPrice, parseFloat)
    ensures f.maxPrice == PriceBound(q.maxPrice, parseFloat)
  {
    Filters(q.name, q.category, PriceBound(q.minPrice, parseFloat), PriceBound(q.maxPrice, parseFloat))
  }

  /** `req.body.quantity || 1`: zero is falsy and becomes 1. */
  function PurchaseQuantity(n: int): (q: int)
    ensures n != 0 ==> q == n
    ensures n == 0 ==> q == 1
  {
    if n != 0 then n else 1
  }

  /** `create`: 201 with the new document. */
  function Create(store: Store, id: SweetId, data: SweetFields, now: int): (r: Served)
    ensures r.response.Success? <==> id !in store && NewSweet(data, now).Ok?
    ensures r.response.Failure? ==> r.store == store
    ensures NewSweet(data, now).Err? ==> r.response == Failure(400, "Validation failed")
    ensures NewSweet(data, now).Ok? && id in store ==> r.response == Failure(409, "_id already exists")
    ensures r.response.Success? ==> && r.store == store[id := NewSweet(data, now).value]
                                    && r.response.status == 201
                                    && r.response.payload == One("Sweet created successfully", Some(Doc(id, r.store[id])))
  {
    var s := SweetRepository.Create(store, id, data, now);
    match s.result
    case Err(e) => Fail(store, e)
    case Ok(d) => Served(s.store, Success(201, One("Sweet created successfully", Some(d))))
  }

  /** `getAll`, for both `/` and `/search`: 200 with the matching documents
      and their number; it changes nothing. */
  function GetAll(store: Store, q: Query, parseFloat: string -> real): (r: Served)
    ensures r.store == store
    ensures r.response.Success? && r.response.status == 200 && r.response.payload.Many?
    ensures var reply := r.response.payload;
            && reply.message == "Sweets retrieved successfully"
            && reply.count == |reply.sweets|
            && NewestFirst(reply.sweets) && DistinctIds(reply.sweets)
            && (forall d :: d in reply.sweets <==>
                  d.id in store && d.sweet == store[d.id] && Matches(FiltersFrom(q, parseFloat), d.sweet))
  {
    var docs := FindAll(store, FiltersFrom(q, parseFloat));
    Served(store, Success(200, Many("Sweets retrieved successfully", |docs|, docs)))
  }

  /** `getById`: 200 with the stored document. */
  function GetById(store: Store, idText: string, parseId: string -> Option<SweetId>): (r: Served)
    ensures r.store == store
    ensures parseId(idText).None? ==> r.response == Failure(500, "Internal server error")
    ensures parseId(idText).Some? ==>
              var id := parseId(idText).value;
              && (id !in store ==> r.response == Failure(404, "Sweet not found"))
              && (id in store ==> r.response == Success(200, One("Sweet retrieved successfully", Some(Doc(id, store[id])))))
  {
    match CastId(idText, parseId)
    case Err(e) => Fail(store, e)
    case Ok(id) =>
      match GetSweetById(store, id)
      case Err(e) => Fail(store, e)
      case Ok(d) => Served(store, Success(200, One("Sweet retrieved successfully", Some(d))))
  }

  /** `update`: 200 with the updated document. */
  function Update(store: Store, idText: string, parseId: string -> Option<SweetId>, f: SweetFields, now: int): (r: Served)
    ensures r.response.Failure? ==> r.store == store
    ensures parseId(idText).None? ==> r.response == Failure(500, "Internal server error")
    ensures parseId(idText).Some? ==>
              var id := parseId(idText).value;
              && (!SuppliedFieldsValid(f) ==> r.response == Failure(400, "Validation failed"))
              && (SuppliedFieldsValid(f) && id !in store ==> r.response == Failure(404, "Sweet not found"))
              && (SuppliedFieldsValid(f) && id in store ==>
                    && r.store == store[id := ApplyFields(store[id], f, now)]
                    && r.response == Success(200, One("Sweet updated successfully", Some(Doc(id, r.store[id])))))
  {
    match CastId(idText, parseId)
    case Err(e) => Fail(store, e)
    case Ok(id) =>
      var s := UpdateSweet(store, id, f, now);
      match s.result
      case Err(e) => Fail(store, e)
      case Ok(d) => Served(s.store, Success(200, One("Sweet updated successfully", Some(d))))
  }

  /** `delete`: 200 with the removed document. */
  function Delete(store: Store, idText: string, parseId: string -> Option<SweetId>): (r: Served)
    ensures r.response.Failure? ==> r.store == store
    ensures parseId(idText).None? ==> r.response == Failure(500, "Internal server error")
    ensures parseId(idText).Some? ==>
              var id := parseId(idText).value;
              && (id !in store ==> r.response == Failure(404, "Sweet not found"))
              && (id in store ==> && r.store == store - {id}
                                  && r.response == Success(200, One("Sweet deleted successfully", Some(Doc(id, store[id])))))
  {
    match CastId(idText, parseId)
    case Err(e) => Fail(store, e)
    case Ok(id) =>
      var s := DeleteSweet(store, id);
      match s.result
      case Err(e) => Fail(store, e)
      case Ok(d) => Served(s.store, Success(200, One("Sweet deleted successfully", Some(d))))
  }

  /** `purchase`: the body's quantity (1 when falsy) goes to the service;
      200 with the updated document. */
  function Purchase(store: Store, idText: string, parseId: string -> Option<SweetId>, n: int, now: int): (r: Served)
    ensures r.response.Failure? ==> r.store == store
    ensures parseId(idText).None? ==> r.response == Failure(500, "Internal server error")
    ensures parseId(idText).Some? ==>
              var id, q := parseId(idText).value, PurchaseQuantity(n);
              && (id !in store ==> r.response == Failure(404, "Sweet not found"))
              && (id in store && store[id].quantity < q ==> r.response == Failure(400, "Insufficient quantity available"))
              && (id in store && q <= store[id].quantity && store[id].quantity != 0 ==>
                    && r.store == store[id := store[id].(quantity := store[id].quantity - q, updatedAt := now)]
                    && r.response == Success(200, One("Purchase successful", Some(Doc(id, r.store[id])))))
  {
    match CastId(idText, parseId)
    case Err(e) => Fail(store, e)
    case Ok(id) =>
      var s := PurchaseSweet(store, id, Some(PurchaseQuantity(n)), now);
      match s.result
      case Err(e) => Fail(store, e)
      case Ok(d) => Served(s.store, Success(200, One("Purchase successful", d)))
  }

  /** `restock`: the body's quantity goes to the service unchanged; 200 with
      the updated document. */
  function Restock(store: Store, idText: string, parseId: string -> Option<SweetId>, n: int, now: int): (r: Served)
    ensures r.response.Failure? ==> r.store == store
    ensures parseId(idText).None? ==> r.response == Failure(500, "Internal server error")
    ensures parseId(idText).Some? ==>
              var id := parseId(idText).value;
              && (id !in store ==> r.response == Failure(404, "Sweet not found"))
              && (id in store ==>
                    && r.store == store[id := store[id].(quantity := store[id].quantity + n, updatedAt := now)]
                    && r.response == Success(200, One("Restock successful", Some(Doc(id, r.store[id])))))
  {
    match CastId(idText, parseId)
    case Err(e) => Fail(store, e)
    case Ok(id) =>
      var s := RestockSweet(store, id, n, now);
      match s.result
      case Err(e) => Fail(store, e)
      case Ok(d) => Served(s.store, Success(200, One("Restock successful", d)))
  }

  // ---------------------------------------------------------------- properties

  /** A listing whose parameters are all absent or empty applies no filter:
      every stored sweet is returned, and the count is the store's size. */
  lemma BlankQueryListsEverything(store: Store, q: Query, parseFloat: string -> real)
    requires q.name.Some? ==> q.name.value == ""
    requires q.category.Some? ==> q.category.value == ""
    requires q.minPrice.Some? ==> q.minPrice.value == ""
    requires q.maxPrice.Some? ==> q.maxPrice.value == ""
    ensures var reply := GetAll(store, q, parseFloat).response.payload;
            && (forall id :: id in store ==> Doc(id, store[id]) in reply.sweets)
            && reply.count == |store|
  {
    var f := FiltersFrom(q, parseFloat);
    var docs := FindAll(store, f);
    forall id | id in store ensures Doc(id, store[id]) in docs {
      assert Matches(f, store[id]);
    }
    CoveringDistinctCount(store, docs);
  }

  /** For an id that parses, a purchase through the controller and a restock
      of the same amount leave the stock where it was. */
  lemma PurchaseThenRestockRestores(store: Store, idText: string, parseId: string -> Option<SweetId>, n: int, t1: int, t2: int)
    requires n >= 1 && parseId(idText).Some?
    requires Purchase(store, idText, parseId, n, t1).response.Success?
    ensures var id := parseId(idText).value;
            var after := Restock(Purchase(store, idText, parseId, n, t1).store, idText, parseId, n, t2).store;
            after == store[id := store[id].(updatedAt := t2)]
  {
    var id := parseId(idText).value;
    RestockUndoesPurchase(store, id, n, t1, t2);
  }
}

=== FILE: sweet_model.dfy ===
/** The `Sweet` document of `src/models/Sweet.js`: the schema's fields, the
    invariant its validators keep on every document they check, the document
    store as a finite map from id to document, and how the schema turns
    supplied field values into a document (path setters, then validators). */
module SweetModel {
  import opened Base
  import opened Text
  import opened ErrorHandler

  /** Document ids. ObjectIds are 12-byte numbers; only their identity and
      their order matter here. */
  type SweetId = nat

  /** A stored sweet. `quantity` is an unbounded `int` on purpose: the
      repository's `$inc` updates bypass the schema's `min: 0`, so the type
      must be able to hold what they could write. */
  datatype Sweet = Sweet(
    name: string,
    category: string,
    price: real,
    quantity: int,
    createdAt: int,
    updatedAt: int)

  /** A document together with its `_id`, as queries return it. */
  datatype Doc = Doc(id: SweetId, sweet: Sweet)

  /** The `sweets` collection. */
  type Store = map<SweetId, Sweet>

  /** The store after an operation together with what it returned or threw. */
  datatype Step<+T> = Step(store: Store, result: Result<T, Thrown>)

  /** `required: true, trim: true` on a string path: stored trimmed, and the
      required validator refuses the empty string. */
  predicate ValidText(s: string) {
    s != [] && IsTrimmed(s)
  }

  /** What the schema guarantees of a document its validators accepted. */
  predicate ValidSweet(s: Sweet) {
    && ValidText(s.name)
    && ValidText(s.category)
    && s.price >= 0.0
    && s.quantity >= 0
  }

  predicate StoreValid(store: Store) {
    forall id :: id in store ==> ValidSweet(store[id])
  }

  /** The fields a create body or a `$set` update may carry; `None` is a
      field that was not supplied. */
  datatype SweetFields = SweetFields(
    name: Option<string>,
    category: Option<string>,
    price: Option<real>,
    quantity: Option<int>)

  /** The schema's validators on the fields that are supplied: the string
      paths are trimmed by their setter and must then be non-empty, the
      numeric paths must be at least 0. */
  predicate SuppliedFieldsValid(f: SweetFields) {
    && (f.name.Some? ==> Trim(f.name.value) != [])
    && (f.category.Some? ==> Trim(f.category.value) != [])
    && (f.price.Some? ==> f.price.value >= 0.0)
    && (f.quantity.Some? ==> f.quantity.value >= 0)
  }

  /** `new Sweet(data)` followed by the validation `save()` runs: the
      document exists exactly when the required paths are present and every
      validator passes; `quantity` defaults to 0 and both timestamps are the
      creation time. */
  function NewSweet(data: SweetFields, now: int): (r: Result<Sweet, Thrown>)
    ensures r.Ok? <==> data.name.Some? && data.category.Some? && data.price.Some? && SuppliedFieldsValid(data)
    ensures r.Ok? ==> ValidSweet(r.value)
    ensures r.Ok? ==> && r.value.name == Trim(data.name.value)
                      && r.value.category == Trim(data.category.value)
                      && r.value.price == data.price.value
                      && r.value.quantity == (if data.quantity.Some? then data.quantity.value else 0)
                      && r.value.createdAt == now && r.value.updatedAt == now
    ensures r.Err? ==> r.error == ValidationError
  {
    if data.name.Some? && data.category.Some? && data.price.Some? && SuppliedFieldsValid(data) then
      Ok(Sweet(Trim(data.name.value), Trim(data.category.value), data.price.value,
               data.quantity.GetOr(0), now, now))
    else
      Err(ValidationError)
  }

  /** A `$set` of the supplied fields, with the setters applied: every
      supplied field is overwritten, every other field is kept, `createdAt`
      never changes and `updatedAt` becomes the update time. */
  function ApplyFields(s: Sweet, f: SweetFields, now: int): (r: Sweet)
    ensures r.name == (if f.name.Some? then Trim(f.name.value) else s.name)
    ensures r.category == (if f.category.Some? then Trim(f.category.value) else s.category)
    ensures r.price == (if f.price.Some? then f.price.value else s.price)
    ensures r.quantity == (if f.quantity.Some? then f.quantity.value else s.quantity)
    ensures r.createdAt == s.createdAt && r.updatedAt == now
  {
    Sweet(
      if f.name.Some? then Trim(f.name.value) else s.name,
      if f.category.Some? then Trim(f.category.value) else s.category,
      f.price.GetOr(s.price),
      f.quantity.GetOr(s.quantity),
      s.createdAt,
      now)
  }

  /** An update the validators accept keeps a valid document valid. */
  lemma ApplyFieldsKeepsValid(s: Sweet, f: SweetFields, now: int)
    requires ValidSweet(s) && SuppliedFieldsValid(f)
    ensures ValidSweet(ApplyFields(s, f, now))
  {
  }

  /** Applying the same update twice is applying it once: the setters'
      trimming is idempotent. */
  lemma ApplyFieldsIdempotent(s: Sweet, f: SweetFields, now: int)
    ensures ApplyFields(ApplyFields(s, f, now), f, now) == ApplyFields(s, f, now)
  {
  }
}

=== FILE: sweet_repository.dfy ===
/** `SweetRepository` of `src/repositories/sweetRepository.js` over the store
    as a map: creation, the filtered and sorted `findAll`, lookups, the `$set`
    update (validators on), the delete, and the two `$inc` quantity updates
    (validators off). Each write takes the clock reading that the
    `timestamps` option stamps into `updatedAt`. */
module SweetRepository {
  import opened Base
  import opened Text
  import opened ErrorHandler
  import opened SweetModel

  /** `create`: `save()` runs the schema's validators as a pre-save hook, so
      invalid data is refused before the insert is tried; valid data under
      an `_id` already in use is then a duplicate key. */
  function Create(store: Store, id: SweetId, data: SweetFields, now: int): (r: Step<Doc>)
    ensures r.result.Err? ==> r.store == store
    ensures NewSweet(data, now).Err? ==> r.result == Err(NewSweet(data, now).error)
    ensures NewSweet(data, now).Ok? && id in store ==> r.result == Err(DuplicateKey(["_id"]))
    ensures r.result.Ok? <==> NewSweet(data, now).Ok? && id !in store
    ensures r.result.Ok? ==> && r.result.value == Doc(id, NewSweet(data, now).value)
                             && r.store == store[id := r.result.value.sweet]
                             && ValidSweet(r.result.value.sweet)
  {
    match NewSweet(data, now)
    case Err(e) => Step(store, Err(e))
    case Ok(s) =>
      if id in store then Step(store, Err(DuplicateKey(["_id"])))
      else Step(store[id := s], Ok(Doc(id, s)))
  }

  // ---------------------------------------------------------------- findAll

  /** The `filters` object `findAll` receives; `None` is an absent key. */
  datatype Filters = Filters(
    name: Option<string>,
    category: Option<string>,
    minPrice: Option<real>,
    maxPrice: Option<real>)

  const NoFilters := Filters(None, None, None, None)

  /** `if (filters.name)`: a missing or empty pattern adds no condition,
      any other pattern must occur in the value ignoring case. */
  predicate TextClause(pattern: Option<string>, value: string) {
    pattern.Some? && pattern.value != "" ==> ContainsIgnoreCase(value, pattern.value)
  }

  /** The query `findAll` builds: every supplied filter must hold; the price
      bounds are inclusive and independent of each other. */
  predicate Matches(f: Filters, s: Sweet) {
    && TextClause(f.name, s.name)
    && TextClause(f.category, s.category)
    && (f.minPrice.Some? ==> s.price >= f.minPrice.value)
    && (f.maxPrice.Some? ==> s.price <= f.maxPrice.value)
  }

  /** `sort({ createdAt: -1 })`: newest first. */
  predicate NewestFirst(docs: seq<Doc>) {
    forall i, j :: 0 <= i < j < |docs| ==> docs[i].sweet.createdAt >= docs[j].sweet.createdAt
  }

  predicate DistinctIds(docs: seq<Doc>) {
    forall i, j :: 0 <= i < j < |docs| ==> docs[i].id != docs[j].id
  }

  predicate StrictlyAscending(ks: seq<SweetId>) {
    forall i, j :: 0 <= i < j < |ks| ==> ks[i] < ks[j]
  }

  /** `m` is the smallest of `keys`. */
  predicate IsLeast(m: SweetId, keys: set<SweetId>) {
    m in keys && forall k :: k in keys ==> m <= k
  }

  lemma {:induction false} LeastExists(keys: set<SweetId>)
    requires keys != {}
    ensures exists m :: IsLeast(m, keys)
    decreases |keys|
  {
    var x :| x in keys;
    var rest := keys - {x};
    if rest == {} {
      forall k | k in keys ensures x <= k {
        assert k in rest || k == x;
      }
      assert IsLeast(x, keys);
    } else {
      LeastExists(rest);
      var m :| IsLeast(m, rest);
      var least := if x < m then x else m;
      forall k | k in keys ensures least <= k {
        if k != x {
          assert k in rest;
        }
      }
      assert IsLeast(least, keys);
    }
  }

  /** The ids of the collection in ascending order, each exactly once: the
      order a scan meets them in. */
  function AscendingKeys(keys: set<SweetId>): (r: seq<SweetId>)
    ensures forall k :: k in r <==> k in keys
    ensures StrictlyAscending(r)
    decreases |keys|
  {
    if keys == {} then []
    else
      LeastExists(keys);
      var m :| IsLeast(m, keys);
      var rest := AscendingKeys(keys - {m});
      AscendingCons(m, rest);
      [m] + rest
  }

  lemma AscendingCons(m: SweetId, rest: seq<SweetId>)
    requires StrictlyAscending(rest)
    requires forall k :: k in rest ==> m < k
    ensures StrictlyAscending([m] + rest)
  {
    var r := [m] + rest;
    forall i, j | 0 <= i < j < |r| ensures r[i] < r[j] {
      assert r[j] == rest[j - 1] && rest[j - 1] in rest;
      if i > 0 {
        assert r[i] == rest[i - 1];
      }
    }
  }

  /** The documents under `ids`, in that order, that satisfy the filters. */
  function Select(store: Store, f: Filters, ids: seq<SweetId>): (r: seq<Doc>)
    requires forall i :: 0 <= i < |ids| ==> ids[i] in store
    ensures forall d :: d in r <==> d.id in ids && d.id in store && d.sweet == store[d.id] && Matches(f, d.sweet)
    ensures StrictlyAscending(ids) ==> DistinctIds(r)
  {
    if ids == [] then []
    else
      var rest := Select(store, f, ids[1..]);
      assert forall d :: d in rest ==> d.id in ids[1..];
      if Matches(f, store[ids[0]]) then [Doc(ids[0], store[ids[0]])] + rest else rest
  }

  /** Prepending a document whose id is new keeps the ids distinct. */
  lemma DistinctCons(x: Doc, rest: seq<Doc>)
    requires DistinctIds(rest)
    requires forall y :: y in rest ==> y.id != x.id
    ensures DistinctIds([x] + rest)
  {
    var r := [x] + rest;
    forall i, j | 0 <= i < j < |r| ensures r[i].id != r[j].id {
      if i == 0 {
        assert r[j] == rest[j - 1];
      } else {
        assert r[i] == rest[i - 1] && r[j] == rest[j - 1];
      }
    }
  }

  /** The tail of a sequence with distinct ids has distinct ids, none of them
      the head's. */
  lemma DistinctTail(docs: seq<Doc>)
    requires docs != [] && DistinctIds(docs)
    ensures DistinctIds(docs[1..])
    ensures forall y :: y in docs[1..] ==> y.id != docs[0].id
  {
    forall y | y in docs[1..] ensures y.id != docs[0].id {
      var i :| 0 <= i < |docs[1..]| && docs[1..][i] == y;
      assert docs[i + 1] == y;
    }
  }

  /** Places `d` before the first document that is not newer than it. */
  function InsertNewestFirst(docs: seq<Doc>, d: Doc): (r: seq<Doc>)
    requires NewestFirst(docs)
    ensures NewestFirst(r)
    ensures multiset(r) == multiset(docs) + multiset{d}
    ensures forall x :: x in r <==> x in docs || x == d
  {
    if docs == [] || d.sweet.createdAt >= docs[0].sweet.createdAt then [d] + docs
    else
      var rest := InsertNewestFirst(docs[1..], d);
      assert forall x :: x in rest ==> x.sweet.createdAt <= docs[0].sweet.createdAt;
      assert docs == [docs[0]] + docs[1..];
      [docs[0]] + rest
  }

  lemma {:induction false} InsertKeepsDistinct(docs: seq<Doc>, d: Doc)
    requires NewestFirst(docs) && DistinctIds(docs)
    requires forall x :: x in docs ==> x.id != d.id
    ensures DistinctIds(InsertNewestFirst(docs, d))
  {
    if docs == [] || d.sweet.createdAt >= docs[0].sweet.createdAt {
      DistinctCons(d, docs);
    } else {
      DistinctTail(docs);
      InsertKeepsDistinct(docs[1..], d);
      DistinctCons(docs[0], InsertNewestFirst(docs[1..], d));
    }
  }

  /** Insertion sort, newest first; it only rearranges the documents. */
  function SortNewestFirst(docs: seq<Doc>): (r: seq<Doc>)
    ensures NewestFirst(r)
    ensures multiset(r) == multiset(docs)
    ensures forall x :: x in r <==> x in docs
  {
    if docs == [] then []
    else
      assert docs == [docs[0]] + docs[1..];
      InsertNewestFirst(SortNewestFirst(docs[1..]), docs[0])
  }

  lemma {:induction false} SortKeepsDistinct(docs: seq<Doc>)
    requires DistinctIds(docs)
    ensures DistinctIds(SortNewestFirst(docs))
  {
    if docs != [] {
      DistinctTail(docs);
      SortKeepsDistinct(docs[1..]);
      InsertKeepsDistinct(SortNewestFirst(docs[1..]), docs[0]);
    }
  }

  /** `findAll(filters)`: exactly the stored documents that satisfy every
      supplied filter, each once, newest first. Reading changes nothing, so
      there is no new store. */
  function FindAll(store: Store, f: Filters): (r: seq<Doc>)
    ensures NewestFirst(r)
    ensures DistinctIds(r)
    ensures forall i :: 0 <= i < |r| ==> r[i].id in store && r[i].sweet == store[r[i].id] && Matches(f, r[i].sweet)
    ensures forall id :: id in store && Matches(f, store[id]) ==> Doc(id, store[id]) in r
  {
    var ids := AscendingKeys(store.Keys);
    var selected := Select(store, f, ids);
    var r := SortNewestFirst(selected);
    SortKeepsDistinct(selected);
    assert forall i :: 0 <= i < |r| ==> r[i] in selected;
    r
  }

  // ---------------------------------------------------------------- lookups and writes

  /** `findById`: the document, or `null`. */
  function FindById(store: Store, id: SweetId): (r: Option<Doc>)
    ensures r.Some? <==> id in store
    ensures r.Some? ==> r.value == Doc(id, store[id])
  {
    if id in store then Some(Doc(id, store[id])) else None
  }

  /** `updateById`: `findByIdAndUpdate` with `$set`, `new: true` and
      `runValidators: true`. The update validators run before the query, so a
      refused update fails even for an unknown id; an unknown id otherwise
      yields `null`; otherwise only the supplied fields (and `updatedAt`)
      change, and only in that document. */
  function UpdateById(store: Store, id: SweetId, f: SweetFields, now: int): (r: Step<Option<Doc>>)
    ensures !SuppliedFieldsValid(f) ==> r == Step(store, Err(ValidationError))
    ensures SuppliedFieldsValid(f) && id !in store ==> r == Step(store, Ok(None))
    ensures SuppliedFieldsValid(f) && id in store ==>
              && r.store == store[id := ApplyFields(store[id], f, now)]
              && r.result == Ok(Some(Doc(id, r.store[id])))
  {
    if !SuppliedFieldsValid(f) then Step(store, Err(ValidationError))
    else if id !in store then Step(store, Ok(None))
    else
      var s := ApplyFields(store[id], f, now);
      Step(store[id := s], Ok(Some(Doc(id, s))))
  }

  /** `deleteById`: removes that one document and returns what it was, or
      returns `null` and changes nothing. */
  function DeleteById(store: Store, id: SweetId): (r: Step<Option<Doc>>)
    ensures r.result.Ok?
    ensures id in store ==> r.result.value == Some(Doc(id, store[id]))
    ensures id !in store ==> r.result.value == None && r.store == store
    ensures r.store.Keys == store.Keys - {id}
    ensures forall k :: k in r.store ==> r.store[k] == store[k]
  {
    if id in store then Step(store - {id}, Ok(Some(Doc(id, store[id]))))
    else Step(store, Ok(None))
  }

  /** A `$inc` on `quantity` through `findByIdAndUpdate` with `new: true` and
      no validators: the quantity moves by `delta` whatever its sign or
      result, `updatedAt` is stamped, nothing else changes. */
  function IncQuantity(store: Store, id: SweetId, delta: int, now: int): (r: Step<Option<Doc>>)
    ensures r.result.Ok?
    ensures id !in store ==> r == Step(store, Ok(None))
    ensures id in store ==>
              && r.store.Keys == store.Keys
              && r.result.value == Some(Doc(id, r.store[id]))
              && r.store[id] == store[id].(quantity := store[id].quantity + delta, updatedAt := now)
              && forall k :: k in store && k != id ==> r.store[k] == store[k]
  {
    if id !in store then Step(store, Ok(None))
    else
      var s := store[id].(quantity := store[id].quantity + delta, updatedAt := now);
      Step(store[id := s], Ok(Some(Doc(id, s))))
  }

  /** `decreaseQuantity(id, q)`: `$inc: { quantity: -q }`. */
  function DecreaseQuantity(store: Store, id: SweetId, q: int, now: int): (r: Step<Option<Doc>>)
    ensures r.result.Ok?
    ensures id !in store ==> r.store == store && r.result.value.None?
    ensures id in store ==>
              && r.store == store[id := store[id].(quantity := store[id].quantity - q, updatedAt := now)]
              && r.result.value == Some(Doc(id, r.store[id]))
  {
    IncQuantity(store, id, -q, now)
  }

  /** `increaseQuantity(id, q)`: `$inc: { quantity: q }`, with no upper bound. */
  function IncreaseQuantity(store: Store, id: SweetId, q: int, now: int): (r: Step<Option<Doc>>)
    ensures r.result.Ok?
    ensures id !in store ==> r.store == store && r.result.value.None?
    ensures id in store ==>
              && r.store == store[id := store[id].(quantity := store[id].quantity + q, updatedAt := now)]
              && r.result.value == Some(Doc(id, r.store[id]))
  {
    IncQuantity(store, id, q, now)
  }

  // ---------------------------------------------------------------- properties

  /** A read after a write sees that write: `findById` returns the document
      a create, an update or a quantity change just returned, finds nothing
      after a delete, and reads every other id as before. */
  lemma FindByIdAfterWrites(store: Store, id: SweetId, other: SweetId, data: SweetFields, f: SweetFields, q: int, now: int)
    requires other != id
    ensures var c := Create(store, id, data, now);
            && (c.result.Ok? ==> FindById(c.store, id) == Some(c.result.value))
            && FindById(c.store, other) == FindById(store, other)
    ensures var u := UpdateById(store, id, f, now);
            && (u.result.Ok? && u.result.value.Some? ==> FindById(u.store, id) == u.result.value)
            && FindById(u.store, other) == FindById(store, other)
    ensures var dec, inc := DecreaseQuantity(store, id, q, now), IncreaseQuantity(store, id, q, now);
            && (id in store ==> FindById(dec.store, id) == dec.result.value && FindById(inc.store, id) == inc.result.value)
            && FindById(dec.store, other) == FindById(store, other)
            && FindById(inc.store, other) == FindById(store, other)
    ensures var del := DeleteById(store, id);
            && FindById(del.store, id) == None
            && FindById(del.store, other) == FindById(store, other)
  {
  }

  /** With no filter, no stored sweet is excluded. */
  lemma NoFiltersMatchAll(s: Sweet)
    ensures Matches(NoFilters, s)
  {
  }

  /** With no filters, `findAll` returns every stored document, once each. */
  lemma FindAllUnfilteredReturnsAll(store: Store)
    ensures forall id :: id in store ==> Doc(id, store[id]) in FindAll(store, NoFilters)
    ensures |FindAll(store, NoFilters)| == |store|
  {
    var r := FindAll(store, NoFilters);
    forall id | id in store ensures Doc(id, store[id]) in r {
      NoFiltersMatchAll(store[id]);
    }
    CoveringDistinctCount(store, r);
  }

  /** Distinct documents that cover every id of the store are as many as
      the store has ids. */
  lemma CoveringDistinctCount(store: Store, r: seq<Doc>)
    requires DistinctIds(r)
    requires forall i :: 0 <= i < |r| ==> r[i].id in store
    requires forall id :: id in store ==> Doc(id, store[id]) in r
    ensures |r| == |store|
  {
    var ids := set i | 0 <= i < |r| :: r[i].id;
    forall id | id in store ensures id in ids {
      var i :| 0 <= i < |r| && r[i] == Doc(id, store[id]);
    }
    assert ids == store.Keys;
    DistinctCount(r);
  }

  /** A sequence of documents with distinct ids has as many ids as entries. */
  lemma {:induction false} DistinctCount(docs: seq<Doc>)
    requires DistinctIds(docs)
    ensures |set i | 0 <= i < |docs| :: docs[i].id| == |docs|
  {
    if docs != [] {
      var rest := docs[1..];
      DistinctCount(rest);
      var ids := set i | 0 <= i < |docs| :: docs[i].id;
      var restIds := set i | 0 <= i < |rest| :: rest[i].id;
      assert ids == {docs[0].id} + restIds by {
        forall x | x in ids ensures x in {docs[0].id} + restIds {
          var i :| 0 <= i < |docs| && docs[i].id == x;
          if i > 0 { assert rest[i - 1].id == x; }
        }
      }
      assert docs[0].id !in restIds;
    }
  }

  /** An empty name or category pattern filters exactly like an absent one. */
  lemma EmptyPatternIgnored(f: Filters, s: Sweet)
    ensures Matches(f.(name := Some("")), s) == Matches(f.(name := None), s)
    ensures Matches(f.(category := Some("")), s) == Matches(f.(category := None), s)
  {
  }

  /** Restocking by `q` undoes a decrease by `q`: the quantity and every other
      document are as before; only the update time differs. */
  lemma IncreaseUndoesDecrease(store: Store, id: SweetId, q: int, t1: int, t2: int)
    requires id in store
    ensures var after := IncreaseQuantity(DecreaseQuantity(store, id, q, t1).store, id, q, t2).store;
            after == store[id := store[id].(updatedAt := t2)]
  {
  }

  /** The `$inc` primitive does not protect the schema's invariant: from a
      valid store a decrease can commit a negative quantity. */
  lemma DecreaseCanBreakInvariant()
    ensures var store: Store := map[0 := Sweet("Toffee", "Candy", 1.0, 2, 0, 0)];
            StoreValid(store) && !StoreValid(DecreaseQuantity(store, 0, 3, 1).store)
  {
    var store: Store := map[0 := Sweet("Toffee", "Candy", 1.0, 2, 0, 0)];
    assert ValidSweet(store[0]);
    assert DecreaseQuantity(store, 0, 3, 1).store[0].quantity == -1;
  }

  /** Creating a sweet and deleting it again leaves the store as it was and
      hands back the created document. */
  lemma CreateThenDeleteRestores(store: Store, id: SweetId, data: SweetFields, now: int)
    requires Create(store, id, data, now).result.Ok?
    ensures var c := Create(store, id, data, now);
            DeleteById(c.store, id) == Step(store, Ok(Some(c.result.value)))
  {
    var c := Create(store, id, data, now);
    assert c.store - {id} == store;
  }

  /** Creation, update and delete keep every document valid; the `$inc`
      updates do so when the resulting quantity is not negative. */
  lemma WritesKeepStoreValid(store: Store, id: SweetId, data: SweetFields, delta: int, now: int)
    requires StoreValid(store)
    ensures StoreValid(Create(store, id, data, now).store)
    ensures StoreValid(UpdateById(store, id, data, now).store)
    ensures StoreValid(DeleteById(store, id).store)
    ensures id in store && store[id].quantity + delta >= 0 ==> StoreValid(IncQuantity(store, id, delta, now).store)
  {
    var c := Create(store, id, data, now);
    if c.result.Ok? {
      StoreValidPut(store, id, c.result.value.sweet);
    }
    if SuppliedFieldsValid(data) && id in store {
      ApplyFieldsKeepsValid(store[id], data, now);
      StoreValidPut(store, id, ApplyFields(store[id], data, now));
    }
    if id in store && store[id].quantity + delta >= 0 {
      var after := IncQuantity(store, id, delta, now).store;
      forall k | k in after ensures ValidSweet(after[k]) {
        if k != id { assert after[k] == store[k]; }
      }
    }
  }

  lemma StoreValidPut(store: Store, id: SweetId, s: Sweet)
    requires StoreValid(store) && ValidSweet(s)
    ensures StoreValid(store[id := s])
  {
  }
}

=== FILE: sweet_routes.dfy ===
/** The sweets router of `src/routes/sweetRoutes.js`, mounted at
    `/api/sweets`: the route table in registration order, the middleware
    stages each route runs before its handler, and the whole request
    handling as one function from a store and a request to the next store
    and the reply. Paths are the segments after `/api/sweets`. The clock,
    the id generator, token verification, the id cast and `parseFloat` come
    in through `Env`. */
module SweetRoutes {
  import opened Base
  import opened Text
  import opened Json
  import opened ErrorHandler
  import opened SweetModel
  import opened SweetValidation
  import opened AuthMiddleware
  import SweetRepository
  import SweetService
  import SC = SweetController

  datatype Method = GET | POST | PUT | DELETE

  /** The handlers of the router; `id` is the `:id` path parameter. */
  datatype Route =
    | CreateRoute
    | ListRoute
    | SearchRoute
    | GetRoute(id: string)
    | UpdateRoute(id: string)
    | DeleteRoute(id: string)
    | PurchaseRoute(id: string)
    | RestockRoute(id: string)

  datatype Request = Request(
    verb: Method,
    path: seq<string>,
    authorization: Option<string>,
    query: SC.Query,
    body: Body)

  /** What the program takes from outside: the clock, the next `_id`, token
      verification, the cast of a path parameter to an id, and `parseFloat`. */
  datatype Env = Env(
    now: int,
    freshId: SweetId,
    verify: string -> Option<Decoded>,
    parseId: string -> Option<SweetId>,
    parseFloat: string -> real)

  function MethodOf(r: Route): Method {
    match r
    case CreateRoute | PurchaseRoute(_) | RestockRoute(_) => POST
    case ListRoute | SearchRoute | GetRoute(_) => GET
    case UpdateRoute(_) => PUT
    case DeleteRoute(_) => DELETE
  }

  function PathOf(r: Route): seq<string> {
    match r
    case CreateRoute | ListRoute => []
    case SearchRoute => ["search"]
    case GetRoute(id) => [id]
    case UpdateRoute(id) => [id]
    case DeleteRoute(id) => [id]
    case PurchaseRoute(id) => [id, "purchase"]
    case RestockRoute(id) => [id, "restock"]
  }

  /** A router made by `express.Router()` without options is not case
      sensitive: a literal segment matches whatever the case of its letters. */
  predicate SegmentIs(seg: string, literal: string) {
    Lower(seg) == literal
  }

  /** The request paths a route's pattern matches; `:id` takes one non-empty
      segment as it is. */
  predicate Answers(r: Route, path: seq<string>) {
    match r
    case CreateRoute => path == []
    case ListRoute => path == []
    case SearchRoute => |path| == 1 && SegmentIs(path[0], "search")
    case GetRoute(id) => path == [id] && id != ""
    case UpdateRoute(id) => path == [id] && id != ""
    case DeleteRoute(id) => path == [id] && id != ""
    case PurchaseRoute(id) => |path| == 2 && path[0] == id && id != "" && SegmentIs(path[1], "purchase")
    case RestockRoute(id) => |path| == 2 && path[0] == id && id != "" && SegmentIs(path[1], "restock")
  }

  /** Express tries the routes in the order they were registered and takes
      the first whose method and pattern match; so `GET /search`, in any
      case, is taken by the search route before `GET /:id` is tried. */
  function Resolve(m: Method, path: seq<string>): (r: Option<Route>)
    ensures r.Some? ==> MethodOf(r.value) == m && Answers(r.value, path)
    ensures r.Some? && r.value.GetRoute? ==> !SegmentIs(r.value.id, "search")
    ensures forall route :: MethodOf(route) == m && Answers(route, path) ==> r.Some?
  {
    if path == [] then
      if m == POST then Some(CreateRoute) else if m == GET then Some(ListRoute) else None
    else if |path| == 1 && path[0] != "" then
      if m == GET then
        if SegmentIs(path[0], "search") then Some(SearchRoute) else Some(GetRoute(path[0]))
      else if m == PUT then Some(UpdateRoute(path[0]))
      else if m == DELETE then Some(DeleteRoute(path[0]))
      else None
    else if |path| == 2 && path[0] != "" && m == POST then
      if SegmentIs(path[1], "purchase") then Some(PurchaseRoute(path[0]))
      else if SegmentIs(path[1], "restock") then Some(RestockRoute(path[0]))
      else None
    else None
  }

  /** A route's `:id`, or the empty string for the routes without one. */
  function IdOf(r: Route): string {
    match r
    case CreateRoute | ListRoute | SearchRoute => ""
    case GetRoute(id) => id
    case UpdateRoute(id) => id
    case DeleteRoute(id) => id
    case PurchaseRoute(id) => id
    case RestockRoute(id) => id
  }

  /** The routes guarded by `authorize('ADMIN')`. */
  predicate AdminOnly(r: Route) {
    r.DeleteRoute? || r.RestockRoute?
  }

  // ---------------------------------------------------------------- stages

  datatype Schema = CreateSchema | UpdateSchema | PurchaseSchema | RestockSchema

  datatype Stage =
    | RequireToken                      // authenticate
    | RequireRole(roles: seq<string>)   // authorize(...roles)
    | ValidateBody(schema: Schema)      // validate(schema)

  /** `router.use(authenticate)` ahead of every route, then the route's own
      middleware in the order it is listed. */
  function Stages(r: Route): seq<Stage> {
    match r
    case CreateRoute => [RequireToken, ValidateBody(CreateSchema)]
    case ListRoute | SearchRoute | GetRoute(_) => [RequireToken]
    case UpdateRoute(_) => [RequireToken, ValidateBody(UpdateSchema)]
    case DeleteRoute(_) => [RequireToken, RequireRole([Admin])]
    case PurchaseRoute(_) => [RequireToken, ValidateBody(PurchaseSchema)]
    case RestockRoute(_) => [RequireToken, RequireRole([Admin]), ValidateBody(RestockSchema)]
  }

  /** The body as the handler reads it after validation replaced it with the
      schema's output. */
  datatype Input = Raw | Fields(fields: SweetFields) | Amount(quantity: int)

  datatype Context = Context(user: Option<Principal>, input: Input)

  const Start := Context(None, Raw)

  function Parse(schema: Schema, body: Body): Result<Input, Thrown> {
    match schema
    case CreateSchema => var f :- ValidateCreate(body); Ok(Fields(f))
    case UpdateSchema => var f :- ValidateUpdate(body); Ok(Fields(f))
    case PurchaseSchema => var n :- ValidatePurchase(body); Ok(Amount(n))
    case RestockSchema => var n :- ValidateRestock(body); Ok(Amount(n))
  }

  function RunStage(s: Stage, req: Request, env: Env, ctx: Context): Result<Context, Thrown> {
    match s
    case RequireToken =>
      var u :- Authenticate(req.authorization, env.verify);
      Ok(ctx.(user := Some(u)))
    case RequireRole(roles) =>
      var u :- Authorize(ctx.user, roles);
      Ok(ctx)
    case ValidateBody(schema) =>
      var input :- Parse(schema, req.body);
      Ok(ctx.(input := input))
  }

  /** The stages one after the other; the first to call `next(error)` ends
      the chain. */
  function RunStages(stages: seq<Stage>, req: Request, env: Env, ctx: Context): Result<Context, Thrown>
    decreases |stages|
  {
    if stages == [] then Ok(ctx)
    else
      var next :- RunStage(stages[0], req, env, ctx);
      RunStages(stages[1..], req, env, next)
  }

  /** The schema a route validates its body with, if any. */
  function SchemaOf(r: Route): Option<Schema> {
    match r
    case CreateRoute => Some(CreateSchema)
    case UpdateRoute(_) => Some(UpdateSchema)
    case PurchaseRoute(_) => Some(PurchaseSchema)
    case RestockRoute(_) => Some(RestockSchema)
    case _ => None
  }

  /** The access policy stated directly: the token must verify; an
      admin-only route then needs the `ADMIN` role; then the body must pass
      the route's schema. */
  function Gate(r: Route, req: Request, env: Env): (g: Result<Context, Thrown>)
    ensures g.Ok? <==> && Authenticate(req.authorization, env.verify).Ok?
                       && (AdminOnly(r) ==> Authenticate(req.authorization, env.verify).value.role == Admin)
                       && (SchemaOf(r).Some? ==> Parse(SchemaOf(r).value, req.body).Ok?)
    ensures Authenticate(req.authorization, env.verify).Err? ==> g == Err(Authenticate(req.authorization, env.verify).error)
    ensures (Authenticate(req.authorization, env.verify).Ok? && AdminOnly(r)
             && Authenticate(req.authorization, env.verify).value.role != Admin) ==> g == Err(Forbidden)
    ensures g.Ok? ==> && g.value.user == Some(Authenticate(req.authorization, env.verify).value)
                      && (SchemaOf(r).None? ==> g.value.input == Raw)
                      && (SchemaOf(r).Some? ==> g.value.input == Parse(SchemaOf(r).value, req.body).value)
  {
    var u :- Authenticate(req.authorization, env.verify);
    if AdminOnly(r) && u.role != Admin then Err(Forbidden)
    else
      match SchemaOf(r)
      case None => Ok(Context(Some(u), Raw))
      case Some(schema) =>
        var input :- Parse(schema, req.body);
        Ok(Context(Some(u), input))
  }

  /** One stage of the chain: a failure ends it, a success hands its
      context to the rest. */
  lemma RunStagesStep(st: seq<Stage>, req: Request, env: Env, ctx: Context)
    requires st != []
    ensures var first := RunStage(st[0], req, env, ctx);
            RunStages(st, req, env, ctx)
              == if first.Err? then Err(first.error) else RunStages(st[1..], req, env, first.value)
  {
  }

  /** The router's middleware chains implement exactly that policy. */
  lemma StagesImplementGate(r: Route, req: Request, env: Env)
    ensures RunStages(Stages(r), req, env, Start) == Gate(r, req, env)
  {
    var st := Stages(r);
    RunStagesStep(st, req, env, Start);
    var a := RunStage(st[0], req, env, Start);
    if a.Ok? && |st| >= 2 {
      RunStagesStep(st[1..], req, env, a.value);
      var b := RunStage(st[1], req, env, a.value);
      if b.Ok? && |st| == 3 {
        RunStagesStep(st[1..][1..], req, env, b.value);
      }
    }
  }

  /** The input each handler reads: validated fields for create and update,
      a validated quantity for purchase and restock. */
  predicate InputFits(r: Route, input: Input) {
    && ((r.CreateRoute? || r.UpdateRoute?) ==> input.Fields?)
    && ((r.PurchaseRoute? || r.RestockRoute?) ==> input.Amount?)
  }

  /** The handler a route ends in. */
  function Control(store: Store, r: Route, input: Input, req: Request, env: Env): SC.Served
    requires InputFits(r, input)
  {
    match r
    case CreateRoute => SC.Create(store, env.freshId, input.fields, env.now)
    case ListRoute => SC.GetAll(store, req.query, env.parseFloat)
    case SearchRoute => SC.GetAll(store, req.query, env.parseFloat)
    case GetRoute(id) => SC.GetById(store, id, env.parseId)
    case UpdateRoute(id) => SC.Update(store, id, env.parseId, input.fields, env.now)
    case DeleteRoute(id) => SC.Delete(store, id, env.parseId)
    case PurchaseRoute(id) => SC.Purchase(store, id, env.parseId, input.quantity, env.now)
    case RestockRoute(id) => SC.Restock(store, id, env.parseId, input.quantity, env.now)
  }

  const RouteNotFound := "Route not found"

  /** One request end to end. A path no route matches still passes the
      router's `authenticate` first and then falls through to the
      application's 404 handler. */
  function Handle(store: Store, req: Request, env: Env): (r: SC.Served)
    ensures Authenticate(req.authorization, env.verify).Err? ==>
              r == SC.Fail(store, Authenticate(req.authorization, env.verify).error)
    ensures r.response.Failure? ==> r.store == store
    ensures Resolve(req.verb, req.path).None? && Authenticate(req.authorization, env.verify).Ok? ==>
              r == SC.Served(store, Failure(404, RouteNotFound))
    ensures Resolve(req.verb, req.path).Some? ==>
              var route := Resolve(req.verb, req.path).value;
              var g := Gate(route, req, env);
              && (g.Err? ==> r == SC.Fail(store, g.error))
              && (g.Ok? ==> InputFits(route, g.value.input) && r == Control(store, route, g.value.input, req, env))
  {
    match Resolve(req.verb, req.path)
    case None =>
      (match Authenticate(req.authorization, env.verify)
       case Err(e) => SC.Fail(store, e)
       case Ok(_) => SC.Served(store, Failure(404, RouteNotFound)))
    case Some(route) =>
      StagesImplementGate(route, req, env);
      match RunStages(Stages(route), req, env, Start)
      case Err(e) => SC.Fail(store, e)
      case Ok(ctx) => Control(store, route, ctx.input, req, env)
  }

  // ---------------------------------------------------------------- properties

  /** Every route can be reached by its own method and path, except that an
      id spelling `search` in any case under GET belongs to the search route. */
  lemma ResolveFindsRoute(r: Route)
    requires !r.CreateRoute? && !r.ListRoute? && !r.SearchRoute? ==> IdOf(r) != ""
    requires r.GetRoute? ==> !SegmentIs(r.id, "search")
    ensures Resolve(MethodOf(r), PathOf(r)) == Some(r)
  {
    LowerFixesNoUpper("search");
    LowerFixesNoUpper("purchase");
    LowerFixesNoUpper("restock");
  }

  /** `GET /search`, whatever the case of its letters, reaches the listing
      handler, with the same reply as `GET /` for the same query. */
  lemma SearchIsListing(store: Store, req: Request, env: Env)
    requires req.verb == GET && |req.path| == 1 && SegmentIs(req.path[0], "search")
    ensures Resolve(GET, req.path) == Some(SearchRoute)
    ensures Handle(store, req, env) == Handle(store, req.(path := []), env)
  {
    StagesImplementGate(SearchRoute, req, env);
    StagesImplementGate(ListRoute, req.(path := []), env);
  }

  /** Mixed-case literal segments reach their routes, as in Express. */
  lemma LiteralSegmentsIgnoreCase(id: string)
    requires id != ""
    ensures Resolve(GET, ["Search"]) == Some(SearchRoute)
    ensures Resolve(POST, [id, "Purchase"]) == Some(PurchaseRoute(id))
    ensures Resolve(POST, [id, "RESTOCK"]) == Some(RestockRoute(id))
  {
    assert Lower("Search") == "search";
    assert Lower("Purchase") == "purchase";
    assert Lower("RESTOCK") == "restock";
  }

  /** A request without a token that verifies gets a 401 on every path, and
      nothing changes. */
  lemma UnauthenticatedGets401(store: Store, req: Request, env: Env)
    requires Authenticate(req.authorization, env.verify).Err?
    ensures Handle(store, req, env).store == store
    ensures Handle(store, req, env).response.status == 401
  {
  }

  /** An authenticated user whose role is not `ADMIN` gets a 403 on delete and
      on restock, whatever the body: the role check runs before the body is
      validated, and nothing changes. */
  lemma NonAdminForbidden(store: Store, req: Request, env: Env)
    requires Resolve(req.verb, req.path).Some? && AdminOnly(Resolve(req.verb, req.path).value)
    requires Authenticate(req.authorization, env.verify).Ok?
    requires Authenticate(req.authorization, env.verify).value.role != Admin
    ensures Handle(store, req, env) == SC.Served(store, Failure(403, "Insufficient permissions. Admin access required."))
  {
    StagesImplementGate(Resolve(req.verb, req.path).value, req, env);
  }

  /** On every other route the role plays no part: two tokens that both
      verify give the same outcome, whoever they name. On the admin-only
      routes the same holds between two administrators. */
  lemma RoleIrrelevantOutsideAdminRoutes(store: Store, req: Request, env: Env, other: string -> Option<Decoded>)
    requires Authenticate(req.authorization, env.verify).Ok?
    requires Authenticate(req.authorization, other).Ok?
    requires Resolve(req.verb, req.path).Some? && AdminOnly(Resolve(req.verb, req.path).value) ==>
               Authenticate(req.authorization, env.verify).value.role == Admin
               && Authenticate(req.authorization, other).value.role == Admin
    ensures Handle(store, req, env) == Handle(store, req, env.(verify := other))
  {
    if Resolve(req.verb, req.path).Some? {
      var route := Resolve(req.verb, req.path).value;
      StagesImplementGate(route, req, env);
      StagesImplementGate(route, req, env.(verify := other));
    }
  }

  /** A body the route's schema refuses never reaches the handler: once the
      caller is let through, the reply is 400 `Validation failed` and
      nothing changes. */
  lemma InvalidBodyRefused(store: Store, req: Request, env: Env)
    requires Resolve(req.verb, req.path).Some?
    requires var r := Resolve(req.verb, req.path).value;
             SchemaOf(r).Some? && Parse(SchemaOf(r).value, req.body).Err?
    requires Authenticate(req.authorization, env.verify).Ok?
    requires AdminOnly(Resolve(req.verb, req.path).value) ==> Authenticate(req.authorization, env.verify).value.role == Admin
    ensures Handle(store, req, env) == SC.Served(store, Failure(400, "Validation failed"))
  {
    var r := Resolve(req.verb, req.path).value;
    var schema := SchemaOf(r).value;
    StagesImplementGate(r, req, env);
    assert Parse(schema, req.body).error == ZodError;
  }

  /** On the purchase route the controller's `|| 1` default never applies:
      the schema has already turned an absent quantity into 1 and refuses
      anything below 1, so a body whose quantity is 0 gets a 400, and an
      accepted quantity reaches the service as it is. */
  lemma PurchaseDefaultUnused(store: Store, req: Request, env: Env, id: string)
    requires Resolve(req.verb, req.path) == Some(PurchaseRoute(id))
    requires Authenticate(req.authorization, env.verify).Ok?
    ensures Field(req.body, "quantity") == Some(JNum(0.0)) ==>
              Handle(store, req, env) == SC.Served(store, Failure(400, "Validation failed"))
    ensures ValidatePurchase(req.body).Ok? ==>
              && SC.PurchaseQuantity(ValidatePurchase(req.body).value) == ValidatePurchase(req.body).value
              && Handle(store, req, env) == SC.Purchase(store, id, env.parseId, ValidatePurchase(req.body).value, env.now)
  {
    StagesImplementGate(PurchaseRoute(id), req, env);
  }

  /** Handling any request keeps every stored sweet valid: the validators
      guard creation and `$set` updates, the purchase pre-check guards the
      decrement, and the restock schema keeps the increment positive. */
  lemma HandleKeepsStoreValid(store: Store, req: Request, env: Env)
    requires StoreValid(store)
    ensures StoreValid(Handle(store, req, env).store)
  {
    if Resolve(req.verb, req.path).Some? {
      var route := Resolve(req.verb, req.path).value;
      StagesImplementGate(route, req, env);
      var g := Gate(route, req, env);
      if g.Ok? {
        if route.RestockRoute? {
          assert g.value.input == Amount(ValidateRestock(req.body).value);
        }
        ControlKeepsStoreValid(store, route, g.value.input, req, env);
      }
    }
  }

  /** Every handler keeps the store valid, given a restock amount that is
      not negative. */
  lemma ControlKeepsStoreValid(store: Store, r: Route, input: Input, req: Request, env: Env)
    requires StoreValid(store) && InputFits(r, input)
    requires r.RestockRoute? ==> input.quantity >= 0
    ensures StoreValid(Control(store, r, input, req, env).store)
  {
    match r
    case UpdateRoute(id) =>
      var p := env.parseId(id);
      if p.Some? && SuppliedFieldsValid(input.fields) && p.value in store {
        ApplyFieldsKeepsValid(store[p.value], input.fields, env.now);
        SweetRepository.StoreValidPut(store, p.value, ApplyFields(store[p.value], input.fields, env.now));
      }
    case PurchaseRoute(id) =>
      var p := env.parseId(id);
      if p.Some? {
        SweetService.StockOpKeepsStoreValid(store, SweetService.Purchase(p.value, Some(SC.PurchaseQuantity(input.quantity)), env.now));
      }
    case RestockRoute(id) =>
      var p := env.parseId(id);
      if p.Some? {
        SweetService.StockOpKeepsStoreValid(store, SweetService.Restock(p.value, input.quantity, env.now));
      }
    case CreateRoute =>
      var c := SC.Create(store, env.freshId, input.fields, env.now);
      if c.response.Success? {
        SweetRepository.StoreValidPut(store, env.freshId, NewSweet(input.fields, env.now).value);
      }
    case DeleteRoute(id) =>
    case _ =>
  }

  /** A request together with the environment it meets. */
  datatype Call = Call(req: Request, env: Env)

  /** The store after serving the calls one after the other. */
  function Serve(store: Store, calls: seq<Call>): Store
    decreases |calls|
  {
    if calls == [] then store
    else Serve(Handle(store, calls[0].req, calls[0].env).store, calls[1..])
  }

  /** Over any sequence of requests, whatever their bodies, tokens and ids,
      every stored sweet stays valid; in particular no quantity ever becomes
      negative. */
  lemma {:induction false} ServeKeepsStoreValid(store: Store, calls: seq<Call>)
    requires StoreValid(store)
    ensures StoreValid(Serve(store, calls))
    ensures SweetService.QuantitiesNonNegative(Serve(store, calls))
    decreases |calls|
  {
    if calls != [] {
      HandleKeepsStoreValid(store, calls[0].req, calls[0].env);
      ServeKeepsStoreValid(Handle(store, calls[0].req, calls[0].env).store, calls[1..]);
    }
  }
}

=== FILE: sweet_service.dfy ===
/** `SweetService` of `src/services/sweetService.js`: the not-found mapping of
    get, update and delete, and the business rules of purchase and restock,
    written against the repository operations that exist. The service's
    `userId` parameters are left out: no caller supplies one and no rule
    reads one. */
module SweetService {
  import opened Base
  import opened ErrorHandler
  import opened SweetModel
  import opened SweetRepository

  const NotFound: Thrown := AppError("Sweet not found", 404)
  const InsufficientQuantity: Thrown := AppError("Insufficient quantity available", 400)
  const OutOfStock: Thrown := AppError("Sweet is out of stock", 400)

  /** `getSweetById`: the stored document, or 404 `Sweet not found`. */
  function GetSweetById(store: Store, id: SweetId): (r: Result<Doc, Thrown>)
    ensures r.Ok? <==> id in store
    ensures r.Ok? ==> r.value == Doc(id, store[id])
    ensures r.Err? ==> r.error == NotFound
  {
    match FindById(store, id)
    case Some(d) => Ok(d)
    case None => Err(NotFound)
  }

  /** `updateSweet`: a refused update is a Mongoose validation error (even
      for an unknown id), an unknown id is 404, otherwise the updated
      document; failures change nothing. */
  function UpdateSweet(store: Store, id: SweetId, f: SweetFields, now: int): (r: Step<Doc>)
    ensures r.result.Err? ==> r.store == store
    ensures r.result.Ok? <==> SuppliedFieldsValid(f) && id in store
    ensures !SuppliedFieldsValid(f) ==> r.result == Err(ValidationError)
    ensures SuppliedFieldsValid(f) && id !in store ==> r.result == Err(NotFound)
    ensures r.result.Ok? ==> && r.store == store[id := ApplyFields(store[id], f, now)]
                             && r.result.value == Doc(id, r.store[id])
  {
    var s := UpdateById(store, id, f, now);
    match s.result
    case Err(e) => Step(store, Err(e))
    case Ok(None) => Step(store, Err(NotFound))
    case Ok(Some(d)) => Step(s.store, Ok(d))
  }

  /** `deleteSweet`: removes the document and returns it, or 404. */
  function DeleteSweet(store: Store, id: SweetId): (r: Step<Doc>)
    ensures id !in store ==> r == Step(store, Err(NotFound))
    ensures id in store ==> r.result == Ok(Doc(id, store[id])) && r.store == store - {id}
  {
    var s := DeleteById(store, id);
    match s.result
    case Ok(Some(d)) => Step(s.store, Ok(d))
    case _ => Step(store, Err(NotFound))
  }

  /** `purchaseSweet(id, quantity = 1)`. The stock is read first; the
      "insufficient" test runs BEFORE the "out of stock" test, so for any
      request of at least one unit an empty stock is reported as
      insufficient, and the out-of-stock error is only reachable with a
      request of zero or fewer units. A sale decrements the stock through
      the unchecked `$inc`, and returns the updated document. */
  function PurchaseSweet(store: Store, id: SweetId, quantity: Option<int>, now: int): (r: Step<Option<Doc>>)
    ensures var q := quantity.GetOr(1);
            && (r.result.Err? ==> r.store == store)
            && (id !in store ==> r.result == Err(NotFound))
            && (id in store && store[id].quantity < q ==> r.result == Err(InsufficientQuantity))
            && (r.result == Err(OutOfStock) <==> id in store && store[id].quantity == 0 && q <= 0)
            && (r.result.Ok? <==> id in store && q <= store[id].quantity && store[id].quantity != 0)
            && (r.result.Ok? ==> && r.store == store[id := store[id].(quantity := store[id].quantity - q, updatedAt := now)]
                                 && r.result.value == Some(Doc(id, r.store[id])))
  {
    var q := quantity.GetOr(1);
    match FindById(store, id)
    case None => Step(store, Err(NotFound))
    case Some(d) =>
      if d.sweet.quantity < q then Step(store, Err(InsufficientQuantity))
      else if d.sweet.quantity == 0 then Step(store, Err(OutOfStock))
      else DecreaseQuantity(store, id, q, now)
  }

  /** `restockSweet`: 404 for an unknown id, otherwise the stock grows by
      `quantity`, with no upper bound and no check of its sign (the route's
      validator is what keeps it positive). */
  function RestockSweet(store: Store, id: SweetId, quantity: int, now: int): (r: Step<Option<Doc>>)
    ensures id !in store ==> r == Step(store, Err(NotFound))
    ensures id in store ==> && r.store == store[id := store[id].(quantity := store[id].quantity + quantity, updatedAt := now)]
                            && r.result == Ok(Some(Doc(id, r.store[id])))
  {
    match FindById(store, id)
    case None => Step(store, Err(NotFound))
    case Some(_) => IncreaseQuantity(store, id, quantity, now)
  }

  // ---------------------------------------------------------------- properties

  /** For a request of one unit or more the out-of-stock branch can never be
      taken: an empty stock yields the insufficient-quantity error instead
      (the service's own test expects a message mentioning "stock"). */
  lemma OutOfStockUnreachable(store: Store, id: SweetId, quantity: Option<int>, now: int)
    requires quantity.GetOr(1) >= 1
    ensures PurchaseSweet(store, id, quantity, now).result != Err(OutOfStock)
    ensures id in store && store[id].quantity == 0 ==>
              PurchaseSweet(store, id, quantity, now) == Step(store, Err(InsufficientQuantity))
  {
  }

  /** Buying the whole stock empties it; one unit more is refused. */
  lemma PurchaseBoundary(store: Store, id: SweetId, now: int)
    requires id in store && store[id].quantity >= 1
    ensures var all := store[id].quantity;
            && PurchaseSweet(store, id, Some(all), now).store[id].quantity == 0
            && PurchaseSweet(store, id, Some(all + 1), now) == Step(store, Err(InsufficientQuantity))
  {
  }

  predicate QuantitiesNonNegative(store: Store) {
    forall id :: id in store ==> store[id].quantity >= 0
  }

  /** A stock mutation as the service receives it, stamped with its time. */
  datatype StockOp =
    | Purchase(id: SweetId, requested: Option<int>, at: int)
    | Restock(id: SweetId, amount: int, at: int)

  function ApplyStockOp(store: Store, op: StockOp): Store {
    match op
    case Purchase(id, q, at) => PurchaseSweet(store, id, q, at).store
    case Restock(id, q, at) => RestockSweet(store, id, q, at).store
  }

  /** The store after the operations, one after the other. */
  function RunStockOps(store: Store, ops: seq<StockOp>): Store
    decreases |ops|
  {
    if ops == [] then store else RunStockOps(ApplyStockOp(store, ops[0]), ops[1..])
  }

  /** One purchase or non-negative restock keeps every quantity non-negative.
      For a purchase this rests on the service's pre-check alone; the `$inc`
      it then issues would commit any value (see DecreaseCanBreakInvariant). */
  lemma StockOpKeepsQuantitiesNonNegative(store: Store, op: StockOp)
    requires QuantitiesNonNegative(store)
    requires op.Restock? ==> op.amount >= 0
    ensures QuantitiesNonNegative(ApplyStockOp(store, op))
  {
  }

  /** In any sequential run of purchases and restocks, with restock amounts
      that are not negative (the route's validator demands at least one), no
      quantity ever becomes negative. */
  lemma {:induction false} StockOpsKeepQuantitiesNonNegative(store: Store, ops: seq<StockOp>)
    requires QuantitiesNonNegative(store)
    requires forall i :: 0 <= i < |ops| && ops[i].Restock? ==> ops[i].amount >= 0
    ensures QuantitiesNonNegative(RunStockOps(store, ops))
    decreases |ops|
  {
    if ops != [] {
      StockOpKeepsQuantitiesNonNegative(store, ops[0]);
      StockOpsKeepQuantitiesNonNegative(ApplyStockOp(store, ops[0]), ops[1..]);
    }
  }

  /** The units the operations restock into `id`. */
  function RestockSum(id: SweetId, ops: seq<StockOp>): int
    decreases |ops|
  {
    if ops == [] then 0
    else (if ops[0].Restock? && ops[0].id == id then ops[0].amount else 0) + RestockSum(id, ops[1..])
  }

  /** The units the run's successful purchases take from `id`; whether a
      purchase succeeds depends on the stock the earlier operations left. */
  function SoldSum(store: Store, id: SweetId, ops: seq<StockOp>): int
    decreases |ops|
  {
    if ops == [] then 0
    else
      var op := ops[0];
      var sold := if op.Purchase? && op.id == id && PurchaseSweet(store, id, op.requested, op.at).result.Ok?
                  then op.requested.GetOr(1) else 0;
      sold + SoldSum(ApplyStockOp(store, op), id, ops[1..])
  }

  /** Stock is conserved: after any sequential run a sweet holds what it
      started with, plus everything restocked, minus everything sold. */
  lemma {:induction false} StockBalance(store: Store, id: SweetId, ops: seq<StockOp>)
    requires id in store
    ensures id in RunStockOps(store, ops)
    ensures RunStockOps(store, ops)[id].quantity == store[id].quantity + RestockSum(id, ops) - SoldSum(store, id, ops)
    decreases |ops|
  {
    if ops != [] {
      StockBalance(ApplyStockOp(store, ops[0]), id, ops[1..]);
    }
  }

  /** Purchases of a non-negative number of units never add stock. */
  lemma {:induction false} SoldSumNonNegative(store: Store, id: SweetId, ops: seq<StockOp>)
    requires forall i :: 0 <= i < |ops| && ops[i].Purchase? ==> ops[i].requested.GetOr(1) >= 0
    ensures SoldSum(store, id, ops) >= 0
    decreases |ops|
  {
    if ops != [] {
      SoldSumNonNegative(ApplyStockOp(store, ops[0]), id, ops[1..]);
    }
  }

  /** The upper half of the stock invariant: a sweet never holds more than
      its initial stock plus everything restocked into it. */
  lemma StockNeverExceedsRestocks(store: Store, id: SweetId, ops: seq<StockOp>)
    requires id in store
    requires forall i :: 0 <= i < |ops| && ops[i].Purchase? ==> ops[i].requested.GetOr(1) >= 0
    ensures id in RunStockOps(store, ops)
    ensures RunStockOps(store, ops)[id].quantity <= store[id].quantity + RestockSum(id, ops)
  {
    StockBalance(store, id, ops);
    SoldSumNonNegative(store, id, ops);
  }

  /** Purchases and non-negative restocks keep the whole document invariant,
      since they change nothing but the quantity and the update time. */
  lemma StockOpKeepsStoreValid(store: Store, op: StockOp)
    requires StoreValid(store)
    requires op.Restock? ==> op.amount >= 0
    ensures StoreValid(ApplyStockOp(store, op))
  {
  }

  /** Restocking what a successful purchase took restores the stock; only
      the update time of that one document differs. */
  lemma RestockUndoesPurchase(store: Store, id: SweetId, q: int, t1: int, t2: int)
    requires PurchaseSweet(store, id, Some(q), t1).result.Ok?
    ensures RestockSweet(PurchaseSweet(store, id, Some(q), t1).store, id, q, t2).store
              == store[id := store[id].(updatedAt := t2)]
  {
  }

  /** The service itself trusts its caller on the restock amount: a negative
      amount commits a negative stock. Only the route's validator prevents it. */
  lemma RestockTrustsCaller()
    ensures var store: Store := map[7 := Sweet("Fudge", "Candy", 2.5, 0, 0, 0)];
            && StoreValid(store)
            && RestockSweet(store, 7, -5, 1).store[7].quantity == -5
  {
    var store: Store := map[7 := Sweet("Fudge", "Candy", 2.5, 0, 0, 0)];
    assert ValidSweet(store[7]);
  }

  // ---------------------------------------------------------------- as written

  /** The methods `SweetRepository` defines. */
  const RepositoryMethods: set<string> :=
    {"create", "findAll", "findById", "updateById", "deleteById", "decreaseQuantity", "increaseQuantity"}

  /** The repository methods the service's source actually calls for get,
      update, delete, purchase and restock. */
  const ServiceLookups: seq<string> :=
    ["findByIdAndUser", "updateByIdAndUser", "deleteByIdAndUser", "decreaseQuantityAndUser", "increaseQuantityAndUser"]

  /** Calling `this.sweetRepository[name](...)` as the source does: a name
      the class does not define is `undefined`, and calling it throws a
      `TypeError` before any query runs. */
  function RepositoryCallAsWritten(name: string): (r: Result<(), Thrown>)
    ensures r.Ok? <==> name in RepositoryMethods
    ensures r.Err? ==> r.error.Raised? && r.error.name == "TypeError"
  {
    if name in RepositoryMethods then Ok(()) else Err(Raised("TypeError", None, []))
  }

  /** None of the lookups the service writes exists, so as written every
      get, update, delete, purchase and restock ends in a 500, even for a
      stored sweet; the model's service calls `findById`, `updateById`,
      `deleteById`, `decreaseQuantity` and `increaseQuantity` instead. */
  lemma ServiceLookupsAreUndefined<T>(store: Store, id: SweetId)
    requires id in store
    ensures forall i :: 0 <= i < |ServiceLookups| ==>
              && RepositoryCallAsWritten(ServiceLookups[i]).Err?
              && HandleError<T>(RepositoryCallAsWritten(ServiceLookups[i]).error) == Failure(500, "Internal server error")
    ensures GetSweetById(store, id) == Ok(Doc(id, store[id]))
  {
  }
}

=== FILE: sweet_validation.dfy ===
/** The zod schemas of `src/validations/sweetValidation.js` as functions from
    a parsed JSON body to the typed fields the controllers read. Zod runs a
    string's checks in the order they are written, so `min` and `max` look at
    the string as sent and `trim` only rewrites it afterwards. Unknown keys
    are stripped; every failure is a `ZodError`. */
module SweetValidation {
  import opened Base
  import opened Text
  import opened Json
  import opened ErrorHandler
  import opened SweetModel

  const NameMax := 100
  const CategoryMax := 50

  /** `z.string().min(1).max(n)` on the value as sent. */
  predicate TextOk(v: Option<Json>, maxLen: nat) {
    v.Some? && v.value.JStr? && 1 <= |v.value.s| <= maxLen
  }

  /** `z.number().min(0)`. */
  predicate PriceOk(v: Option<Json>) {
    v.Some? && v.value.JNum? && v.value.n >= 0.0
  }

  /** `z.number().int().min(least)`. */
  predicate CountOk(v: Option<Json>, least: int) {
    v.Some? && v.value.JNum? && IsInteger(v.value.n) && v.value.n >= least as real
  }

  /** An absent key passes an `.optional()` or `.default()` wrapper. */
  predicate Absent(v: Option<Json>) {
    v.None?
  }

  function TextValue(v: Option<Json>): string
    requires v.Some? && v.value.JStr?
  {
    Trim(v.value.s)
  }

  function CountValue(v: Option<Json>): int
    requires v.Some? && v.value.JNum?
  {
    v.value.n.Floor
  }

  /** `createSweetSchema`: name (1..100) and category (1..50) are required
      strings, length-checked and then trimmed; price is a required number of
      at least 0; quantity is an integer of at least 0 that defaults to 0. */
  function ValidateCreate(body: Body): (r: Result<SweetFields, Thrown>)
    ensures var name, category, price, quantity := Field(body, "name"), Field(body, "category"), Field(body, "price"), Field(body, "quantity");
            && (r.Ok? <==> TextOk(name, NameMax) && TextOk(category, CategoryMax) && PriceOk(price)
                           && (Absent(quantity) || CountOk(quantity, 0)))
            && (r.Ok? ==> && r.value.name == Some(Trim(name.value.s))
                          && r.value.category == Some(Trim(category.value.s))
                          && r.value.price == Some(price.value.n)
                          && r.value.quantity.Some? && r.value.quantity.value >= 0
                          && (Absent(quantity) ==> r.value.quantity == Some(0))
                          && (quantity.Some? ==> r.value.quantity.value as real == quantity.value.n))
            && (r.Err? ==> r.error == ZodError)
  {
    var name, category, price, quantity := Field(body, "name"), Field(body, "category"), Field(body, "price"), Field(body, "quantity");
    if TextOk(name, NameMax) && TextOk(category, CategoryMax) && PriceOk(price)
       && (Absent(quantity) || CountOk(quantity, 0)) then
      Ok(SweetFields(Some(TextValue(name)), Some(TextValue(category)), Some(price.value.n),
                     Some(if Absent(quantity) then 0 else CountValue(quantity))))
    else Err(ZodError)
  }

  /** `updateSweetSchema`: every field optional; a supplied field must meet
      the same bound as on create. */
  function ValidateUpdate(body: Body): (r: Result<SweetFields, Thrown>)
    ensures var name, category, price, quantity := Field(body, "name"), Field(body, "category"), Field(body, "price"), Field(body, "quantity");
            && (r.Ok? <==> && (Absent(name) || TextOk(name, NameMax))
                           && (Absent(category) || TextOk(category, CategoryMax))
                           && (Absent(price) || PriceOk(price))
                           && (Absent(quantity) || CountOk(quantity, 0)))
            && (r.Ok? ==> && (r.value.name.Some? <==> name.Some?)
                          && (r.value.category.Some? <==> category.Some?)
                          && (r.value.price.Some? <==> price.Some?)
                          && (r.value.quantity.Some? <==> quantity.Some?)
                          && (name.Some? ==> r.value.name.value == Trim(name.value.s))
                          && (category.Some? ==> r.value.category.value == Trim(category.value.s))
                          && (price.Some? ==> r.value.price.value == price.value.n >= 0.0)
                          && (quantity.Some? ==> r.value.quantity.value >= 0
                                                 && r.value.quantity.value as real == quantity.value.n))
            && (r.Err? ==> r.error == ZodError)
  {
    var name, category, price, quantity := Field(body, "name"), Field(body, "category"), Field(body, "price"), Field(body, "quantity");
    if && (Absent(name) || TextOk(name, NameMax))
       && (Absent(category) || TextOk(category, CategoryMax))
       && (Absent(price) || PriceOk(price))
       && (Absent(quantity) || CountOk(quantity, 0)) then
      Ok(SweetFields(
        if Absent(name) then None else Some(TextValue(name)),
        if Absent(category) then None else Some(TextValue(category)),
        if Absent(price) then None else Some(price.value.n),
        if Absent(quantity) then None else Some(CountValue(quantity))))
    else Err(ZodError)
  }

  /** `purchaseSchema`: an integer of at least 1, 1 when absent. */
  function ValidatePurchase(body: Body): (r: Result<int, Thrown>)
    ensures var quantity := Field(body, "quantity");
            && (r.Ok? <==> Absent(quantity) || CountOk(quantity, 1))
            && (r.Ok? ==> r.value >= 1)
            && (Absent(quantity) ==> r == Ok(1))
            && (r.Ok? && quantity.Some? ==> r.value as real == quantity.value.n)
            && (r.Err? ==> r.error == ZodError)
  {
    var quantity := Field(body, "quantity");
    if Absent(quantity) then Ok(1)
    else if CountOk(quantity, 1) then Ok(CountValue(quantity))
    else Err(ZodError)
  }

  /** `restockSchema`: a required integer of at least 1, with no default. */
  function ValidateRestock(body: Body): (r: Result<int, Thrown>)
    ensures var quantity := Field(body, "quantity");
            && (r.Ok? <==> CountOk(quantity, 1))
            && (r.Ok? ==> r.value >= 1 && r.value as real == quantity.value.n)
            && (r.Err? ==> r.error == ZodError)
  {
    var quantity := Field(body, "quantity");
    if CountOk(quantity, 1) then Ok(CountValue(quantity)) else Err(ZodError)
  }

  // ---------------------------------------------------------------- properties

  /** Restock has no default: a body without `quantity` is refused. */
  lemma RestockRequiresQuantity(body: Body)
    requires "quantity" !in body
    ensures ValidateRestock(body) == Err(ZodError)
  {
  }

  /** A create body the schema accepts becomes a stored document unless a
      name or category was nothing but whitespace; the schema's numeric
      bounds coincide with the model's. */
  lemma ValidatedCreateIsStorable(body: Body, now: int)
    requires ValidateCreate(body).Ok?
    ensures var f := ValidateCreate(body).value;
            NewSweet(f, now).Ok? <==> Trim(f.name.value) != [] && Trim(f.category.value) != []
  {
    var f := ValidateCreate(body).value;
    TrimIdempotent(Field(body, "name").value.s);
    TrimIdempotent(Field(body, "category").value.s);
  }

  /** An update the schema accepts passes the model's update validators
      unless it sets a name or category of whitespace only. */
  lemma ValidatedUpdateIsStorable(body: Body)
    requires ValidateUpdate(body).Ok?
    ensures var f := ValidateUpdate(body).value;
            SuppliedFieldsValid(f) <==> (f.name.Some? ==> f.name.value != []) && (f.category.Some? ==> f.category.value != [])
  {
    var f := ValidateUpdate(body).value;
    if f.name.Some? { TrimIdempotent(Field(body, "name").value.s); }
    if f.category.Some? { TrimIdempotent(Field(body, "category").value.s); }
  }

  /** The length bound is checked before trimming: a name of three spaces
      passes the schema, and the model's `required` validator then refuses
      the empty string the trim leaves. */
  lemma BlankNamePassesSchemaOnly(now: int)
    ensures var body := map["name" := JStr("   "), "category" := JStr("Candy"), "price" := JNum(1.0)];
            && ValidateCreate(body).Ok?
            && NewSweet(ValidateCreate(body).value, now) == Err(ValidationError)
  {
    var body := map["name" := JStr("   "), "category" := JStr("Candy"), "price" := JNum(1.0)];
    assert Field(body, "name") == Some(JStr("   "));
    assert Field(body, "category") == Some(JStr("Candy"));
    assert Field(body, "price") == Some(JNum(1.0));
    assert Field(body, "quantity") == None;
    TrimAllSpaces("   ");
  }
}

=== FILE: text.dfy ===
/** String primitives the service relies on: JavaScript's `String.prototype.trim`,
    `toLowerCase` (ASCII letters only), the email normalisation `toLowerCase().trim()`
    used by the auth validators and the user repository, and the case-insensitive
    substring test a plain MongoDB `$regex` with option `i` performs. */
module Text {

  /** The characters JavaScript's `trim` strips: WhiteSpace and LineTerminator
      (tab, line feed, vertical tab, form feed, carriage return, space, no-break
      space, ogham space, U+2000..U+200A, the two line/paragraph separators,
      narrow no-break space, medium mathematical space, ideographic space and
      the byte-order mark). */
  predicate IsSpace(c: char) {
    var n := c as int;
    || (0x09 <= n <= 0x0D)
    || n == 0x20 || n == 0xA0 || n == 0x1680
    || (0x2000 <= n <= 0x200A)
    || n == 0x2028 || n == 0x2029 || n == 0x202F || n == 0x205F
    || n == 0x3000 || n == 0xFEFF
  }

  predicate IsUpper(c: char) {
    'A' <= c <= 'Z'
  }

  /** `toLowerCase` on one character, restricted to ASCII letters. */
  function LowerChar(c: char): (d: char)
    ensures !IsUpper(d)
    ensures IsSpace(d) <==> IsSpace(c)
    ensures !IsUpper(c) ==> d == c
  {
    if IsUpper(c) then (c as int + 32) as char else c
  }

  /** `toLowerCase` on a string: every character lowered in place. */
  function Lower(s: string): (r: string)
    ensures |r| == |s|
    ensures forall i :: 0 <= i < |s| ==> r[i] == LowerChar(s[i])
  {
    seq(|s|, i requires 0 <= i < |s| => LowerChar(s[i]))
  }

  predicate NoUpper(s: string) {
    forall i :: 0 <= i < |s| ==> !IsUpper(s[i])
  }

  /** Lower-casing leaves a string that has no upper-case letter alone. */
  lemma LowerFixesNoUpper(s: string)
    requires NoUpper(s)
    ensures Lower(s) == s
  {
  }

  /** The first index at or after `i` that does not hold whitespace, or `|s|`
      when there is none. */
  function SkipSpaces(s: string, i: nat): (j: nat)
    requires i <= |s|
    ensures i <= j <= |s|
    ensures forall k :: i <= k < j ==> IsSpace(s[k])
    ensures j < |s| ==> !IsSpace(s[j])
    decreases |s| - i
  {
    if i < |s| && IsSpace(s[i]) then SkipSpaces(s, i + 1) else i
  }

  /** Walking back from `j` over whitespace, but not below `lo`: one past the
      last index before `j` that does not hold whitespace. */
  function BackSpaces(s: string, lo: nat, j: nat): (i: nat)
    requires lo <= j <= |s|
    ensures lo <= i <= j
    ensures forall k :: i <= k < j ==> IsSpace(s[k])
    ensures i > lo ==> !IsSpace(s[i - 1])
    decreases j - lo
  {
    if j > lo && IsSpace(s[j - 1]) then BackSpaces(s, lo, j - 1) else j
  }

  /** A string `trim` leaves as it is. */
  predicate IsTrimmed(s: string) {
    s == [] || (!IsSpace(s[0]) && !IsSpace(s[|s| - 1]))
  }

  /** `r` is the run of `s` from `start` on, with only whitespace around it. */
  predicate SliceAmidSpaces(s: string, r: string, start: int) {
    && 0 <= start && start + |r| <= |s|
    && (forall i :: 0 <= i < |r| ==> r[i] == s[start + i])
    && (forall k :: 0 <= k < start ==> IsSpace(s[k]))
    && (forall k :: start + |r| <= k < |s| ==> IsSpace(s[k]))
  }

  /** `String.prototype.trim`: the result is trimmed and is what is left of
      `s` once the leading and the trailing whitespace are dropped. */
  function Trim(s: string): (r: string)
    ensures IsTrimmed(r)
    ensures SliceAmidSpaces(s, r, SkipSpaces(s, 0))
  {
    var a := SkipSpaces(s, 0);
    var b := BackSpaces(s, a, |s|);
    seq(b - a, i requires 0 <= i < b - a => s[a + i])
  }

  /** A trimmed string is a fixed point of `Trim`. */
  lemma TrimFixesTrimmed(s: string)
    requires IsTrimmed(s)
    ensures Trim(s) == s
  {
    if s != [] {
      assert SkipSpaces(s, 0) == 0;
      assert BackSpaces(s, 0, |s|) == |s|;
    }
  }

  /** A string of whitespace only trims to the empty string. */
  lemma TrimAllSpaces(s: string)
    requires forall k :: 0 <= k < |s| ==> IsSpace(s[k])
    ensures Trim(s) == []
  {
  }

  /** Trimming twice is trimming once. */
  lemma TrimIdempotent(s: string)
    ensures Trim(Trim(s)) == Trim(s)
  {
    TrimFixesTrimmed(Trim(s));
  }

  /** The email normalisation `email.toLowerCase().trim()`: the lower-cased
      address with its surrounding whitespace cut off. */
  function NormalizeEmail(e: string): (r: string)
    ensures IsTrimmed(r) && NoUpper(r)
    ensures SliceAmidSpaces(Lower(e), r, SkipSpaces(Lower(e), 0))
  {
    LowerHasNoUpper(e);
    TrimKeepsNoUpper(Lower(e));
    Trim(Lower(e))
  }

  lemma TrimKeepsNoUpper(s: string)
    requires NoUpper(s)
    ensures NoUpper(Trim(s))
  {
    SliceKeepsNoUpper(s, Trim(s), SkipSpaces(s, 0));
  }

  lemma LowerHasNoUpper(s: string)
    ensures NoUpper(Lower(s))
  {
    var l := Lower(s);
    forall k | 0 <= k < |l| ensures !IsUpper(l[k]) {
      assert l[k] == LowerChar(s[k]);
    }
  }

  /** A slice of a string without upper-case letters has none either. */
  lemma SliceKeepsNoUpper(s: string, r: string, start: int)
    requires NoUpper(s)
    requires 0 <= start && start + |r| <= |s|
    requires forall i :: 0 <= i < |r| ==> r[i] == s[start + i]
    ensures NoUpper(r)
  {
    forall k | 0 <= k < |r| ensures !IsUpper(r[k]) {
      assert r[k] == s[start + k];
    }
  }

  /** Normalising an already normalised address changes nothing, so a stored
      (normalised) email is found again from any padded or mixed-case spelling
      of it. */
  lemma NormalizeEmailIdempotent(e: string)
    ensures NormalizeEmail(NormalizeEmail(e)) == NormalizeEmail(e)
  {
    var n := NormalizeEmail(e);
    LowerFixesNoUpper(n);
    TrimFixesTrimmed(n);
  }

  predicate IsPrefix(p: string, s: string) {
    |p| <= |s| && s[..|p|] == p
  }

  /** Substring search by walking the start position along `s`. */
  predicate Contains(s: string, p: string)
    decreases |s|
  {
    IsPrefix(p, s) || (s != [] && Contains(s[1..], p))
  }

  /** `p` occurs in `s` starting at position `i`. */
  predicate OccursAt(s: string, p: string, i: int) {
    0 <= i && i + |p| <= |s| && s[i..i + |p|] == p
  }

  /** `Contains` holds exactly when `p` occurs as a contiguous slice of `s`. */
  lemma {:induction false} ContainsIff(s: string, p: string)
    ensures Contains(s, p) <==> exists i :: OccursAt(s, p, i)
    decreases |s|
  {
    if IsPrefix(p, s) {
      assert OccursAt(s, p, 0);
    } else if s == [] {
    } else {
      ContainsIff(s[1..], p);
      if Contains(s[1..], p) {
        var i :| OccursAt(s[1..], p, i);
        assert s[i + 1..i + 1 + |p|] == s[1..][i..i + |p|];
        assert OccursAt(s, p, i + 1);
      }
      if exists i :: OccursAt(s, p, i) {
        var i :| OccursAt(s, p, i);
        assert i != 0;
        assert s[1..][i - 1..i - 1 + |p|] == s[i..i + |p|];
        assert OccursAt(s[1..], p, i - 1);
      }
    }
  }

  /** Case-insensitive substring test: what a MongoDB `$regex` filter with
      option `i` does for a pattern free of regular-expression metacharacters. */
  predicate ContainsIgnoreCase(s: string, p: string) {
    Contains(Lower(s), Lower(p))
  }
}

=== FILE: user_repository.dfy ===
/** `UserRepository` of `src/repositories/userRepository.js` over the
    `users` collection. The `User` schema (`src/models/User.js`) is not part
    of this model; what the repository relies on from it is a unique index
    on `email`, so the collection is a map keyed by the stored (normalised)
    address. */
module UserRepository {
  import opened Base
  import opened Text
  import opened ErrorHandler

  datatype User = User(id: string, username: string, email: string, password: string, role: string)

  type Users = map<string, User>

  /** Every user is filed under its own address. */
  predicate WellKeyed(users: Users) {
    forall e :: e in users ==> users[e].email == e
  }

  /** No two users share an id. */
  predicate DistinctUserIds(users: Users) {
    forall e1, e2 :: e1 in users && e2 in users && users[e1].id == users[e2].id ==> e1 == e2
  }

  /** The collection after a write together with what it returned or threw. */
  datatype Saved = Saved(users: Users, result: Result<User, Thrown>)

  /** `create`: stores the record as given and returns it; an address that is
      already stored violates the unique index. */
  function Create(users: Users, u: User): (r: Saved)
    ensures u.email in users ==> r == Saved(users, Err(DuplicateKey(["email"])))
    ensures u.email !in users ==> r == Saved(users[u.email := u], Ok(u))
  {
    if u.email in users then Saved(users, Err(DuplicateKey(["email"])))
    else Saved(users[u.email := u], Ok(u))
  }

  /** `findByEmail`: the lookup is on the lower-cased, trimmed address. */
  function FindByEmail(users: Users, e: string): (r: Option<User>)
    ensures r.Some? <==> NormalizeEmail(e) in users
    ensures r.Some? ==> r.value == users[NormalizeEmail(e)]
  {
    var key := NormalizeEmail(e);
    if key in users then Some(users[key]) else None
  }

  /** `emailExists`: the same normalised lookup, reduced to a boolean. */
  function EmailExists(users: Users, e: string): (b: bool)
    ensures b <==> FindByEmail(users, e).Some?
  {
    NormalizeEmail(e) in users
  }

  /** `findById`: the stored user with that id, or none. */
  method FindById(users: Users, id: string) returns (r: Option<User>)
    ensures r.Some? ==> r.value in users.Values && r.value.id == id
    ensures r.None? <==> forall e :: e in users ==> users[e].id != id
  {
    var keys := users.Keys;
    while keys != {}
      invariant keys <= users.Keys
      invariant forall e :: e in users && e !in keys ==> users[e].id != id
      decreases keys
    {
      var e :| e in keys;
      if users[e].id == id {
        return Some(users[e]);
      }
      keys := keys - {e};
    }
    return None;
  }

  // ---------------------------------------------------------------- properties

  /** A created user is found again from any spelling of its address that
      normalises to the stored one. */
  lemma CreatedUserFoundByAnySpelling(users: Users, u: User, e: string)
    requires u.email !in users && NormalizeEmail(e) == u.email
    ensures FindByEmail(Create(users, u).users, e) == Some(u)
    ensures EmailExists(Create(users, u).users, e)
  {
  }

  /** With distinct ids the lookup by id is exact: it returns the user filed
      under the address in question. */
  method FindStoredById(users: Users, e: string) returns (r: Option<User>)
    requires e in users && DistinctUserIds(users)
    ensures r == Some(users[e])
  {
    r := FindById(users, users[e].id);
    var found := r.value;
    var k :| k in users && users[k] == found;
  }

  /** Creation keeps every user filed under its own address. */
  lemma CreateKeepsWellKeyed(users: Users, u: User)
    requires WellKeyed(users)
    ensures WellKeyed(Create(users, u).users)
  {
  }
}
